=== FILE: README.md ===
# InstaPrep Studio: story composer and post-text helpers, in Dafny

This project models the pure state logic of InstaPrep Studio, a tool that prepares
Instagram posts. The logic comes in two groups.

- **Story composer** (`components/StoryDesigner.tsx`). Three fixed text layers (`phrase`, `hours`,
  `phone`) sit over an optional photo or video background. The composer supports a selection,
  a background filter with an intensity, drag gestures and style controls, and two export
  flags. Each animation frame is modelled as a list of draw commands (`Render.DrawPlan`)
  instead of canvas calls. The canvas's text measurement is a parameter.
- **Post-text helpers** (`App.tsx`). These are the hashtag list operations, the AM/PM toggle,
  the hours sentence, the selected-tags string and the assembled post overview.

Everything is a pure function over immutable datatypes. Percentages, pixel geometry and
cover scaling use `real`, so JavaScript floating-point rounding is not modelled.

Modules:
- `Options`: the optional-value datatype.
- `Text`: JavaScript `trim`, an ASCII `toLowerCase`, a one-character `replace`, `join`, and
  integer-to-decimal rendering with its parser.
- `Layers`: layer records, `updateElement`, the gesture clamp, the size steps and the visibility toggle.
- `Filters`: filter presets, filter choice, the intensity slider and the canvas filter string.
- `Cover`: cover-scale geometry.
- `Render`: the font table, the per-frame draw plan and the hit regions.
- `Export`: the export flags, the SAVE button and the three-state export machine.
- `Composer`: the whole composer state, every user action on it, and the session invariant.
- `Hashtags`: toggle, add, remove and the selected-tags string.
- `Post`: business hours, the hours sentence and the full overview.

Three behaviours of the code that the model keeps as written:
- The filter's intensity is appended as `opacity(<n>%)` to the filter of the background draw
  itself (components/StoryDesigner.tsx:79-81). The filtered background is faded toward the
  cleared canvas; it is not blended with an unfiltered copy.
- `isRecording` is cleared only by the recorder's stop handler (components/StoryDesigner.tsx:183-191).
  Nothing clears it when capture or encoding fails. The object URLs made at lines 58 and 185 are never released.
- A font id outside the four named ones falls through to `sans-serif` (components/StoryDesigner.tsx:109-113).
  The model's font type is a closed set of five styles, so only `Sans` reaches that default.

## Model

| member | source | states |
|---|---|---|
| Layers.InitialLayers | components/StoryDesigner.tsx:38-42 | the composer opens with exactly the layers phrase, hours, phone in that order, all visible, each carrying its own external string; all white on a black box colour at x = 50, at heights 30, 75 and 82, sizes 50, 22 and 22, fonts strong, sans and sans; only the phrase has its box on (opacity 0.8, the others 0.5) |
| Layers.UpdateElement | components/StoryDesigner.tsx:64-66 | an update keeps length, order and ids, replaces every layer with the given id by its merge with the patch, and leaves every other layer untouched |
| Layers.Merge | components/StoryDesigner.tsx:65 | the object spread takes each field the patch carries and keeps each field it omits; it never changes a layer's id, text or box colour, and an empty patch changes nothing |
| Layers.Find | components/StoryDesigner.tsx:53 | find returns a layer with the id when one exists and nothing otherwise; with unique ids it returns the one layer with that id |
| Layers.Clamp | components/StoryDesigner.tsx:203 | the max/min clamp lands in [lo, hi], keeps in-range values, and maps values below or above the range to the nearer bound |
| Layers.ClampIdempotent | components/StoryDesigner.tsx:203 | clamping a clamped value changes nothing |
| Layers.TouchPercent | components/StoryDesigner.tsx:201-203 | a touch maps to a percentage in [5, 95]: a raw percentage at or below 5 gives 5, at or above 95 gives 95, and in between is stored unchanged; a touch at or before the element's origin gives 5 and one at or past its far edge gives 95, also on an element of zero extent |
| Layers.MoveSelected | components/StoryDesigner.tsx:197-204 | with no selection the layers are unchanged; otherwise the selected layer's x and y become the clamped percentages of the touch on each axis (so both lie in [5, 95]), its other fields and every other layer are unchanged, and ids are kept |
| Layers.SizeDown | components/StoryDesigner.tsx:363 | minus never goes below 10, keeps sizes in [10, 150], subtracts 5 from 15 upward, and gives 10 for every size up to 15 |
| Layers.SizeUp | components/StoryDesigner.tsx:365 | plus never goes above 150, keeps sizes in [10, 150], adds 5 up to 145, and gives 150 for every size from 145 on |
| Layers.SizeStepsCancel | components/StoryDesigner.tsx:363-365 | away from the bounds, plus undoes minus and minus undoes plus |
| Layers.ToggleVisible | components/StoryDesigner.tsx:290 | the eye button keeps ids, flips only `visible` of the layer with that id (ids unique), and leaves the other layers untouched |
| Layers.ToggleVisibleTwice | components/StoryDesigner.tsx:290 | two visibility toggles of one layer restore the layers exactly |
| Filters.Choose | components/StoryDesigner.tsx:306 | picking a preset takes its name and expression and keeps the current intensity |
| Filters.SetIntensity | components/StoryDesigner.tsx:316-327 | the intensity slider changes only the intensity and is absent while the filter is "Normal" |
| Filters.CanvasFilter | components/StoryDesigner.tsx:79-81 | a canvas filter is set exactly when the name is not "Normal"; it starts with the expression and ends with the percent opacity term |
| Filters.CanvasFilterRoundTrip | components/StoryDesigner.tsx:79-81 | the expression and intensity can be read back from the canvas filter string `<expr> opacity(<n>%)` |
| Filters.CanvasFilterInjective | components/StoryDesigner.tsx:79-81 | different expressions or intensities of active filters never produce the same canvas filter |
| Cover.CoverScale | components/StoryDesigner.tsx:87 | the cover scale is the larger of the two per-axis scales, so it reaches both |
| Cover.CoverPlacementCovers | components/StoryDesigner.tsx:87-97 | the cover-scaled background covers the canvas (x <= 0, x + w >= W, likewise y), is centred, keeps the aspect ratio and fills one axis exactly |
| Render.FontFamilyRoundTrip | components/StoryDesigner.tsx:109-113 | the font-to-family table is one to one: each family maps back to its font style |
| Render.FontSpec | components/StoryDesigner.tsx:115 | the canvas font starts with `bold <2*size>px "<family>`, ends with `", sans-serif`, and has exactly the length of the two together, so it is their concatenation |
| Render.LayerCommands | components/StoryDesigner.tsx:116-146 | a layer draws two commands with a box and one without, and its last command is always its text |
| Render.LayerCommandsGeometry | components/StoryDesigner.tsx:119-144 | a boxed layer draws a box of width textWidth + 2*0.6*size and height 2*size*1.2, centred on the anchor, in its box colour and opacity; the text has the drop shadow exactly when there is no box |
| Render.VisibleMembers | components/StoryDesigner.tsx:105-106 | the visible layers are exactly the layers with `visible` set |
| Render.LayersPlanTexts | components/StoryDesigner.tsx:105-148 | the texts of the layer pass are the text commands of the visible layers, one each, in array order |
| Render.LayersPlanIsVisibleCommands | components/StoryDesigner.tsx:105-148 | the layer pass is exactly the visible layers' box-and-text commands concatenated in array order, and equals the pass over the visible layers alone, so an invisible layer draws no command of any kind |
| Render.LayersPlanCommandsFromVisible | components/StoryDesigner.tsx:105-148 | every command of the layer pass belongs to the commands of some visible layer |
| Render.LayersPlanBoxes | components/StoryDesigner.tsx:115-133 | every box in the layer pass is the box of a visible layer with its box on, in that layer's box colour and opacity, as wide as its measured text plus 0.6 * size of padding per side, 2.4 * size high, and centred on its anchor |
| Render.DrawPlanTexts | components/StoryDesigner.tsx:68-148 | a whole frame's texts are the visible layers' texts in array order, each shadowed exactly when it has no box |
| Render.DrawPlanBackdrop | components/StoryDesigner.tsx:74-103 | the `#1e293b` fill is drawn exactly when no background exists; a drawable background comes first, cover-scaled, under the canvas filter; a background that cannot be drawn yet adds nothing, so the frame is the clear followed by the layers |
| Render.DrawPlan | components/StoryDesigner.tsx:74 | every frame starts by clearing the canvas |
| Render.HitRegionsFollowVisible | components/StoryDesigner.tsx:262-269 | hit regions match the visible layers one to one and in order; each region sits on its text's anchor |
| Render.HittableIffVisible | components/StoryDesigner.tsx:262-268 | a hit region with a given id exists exactly when a layer with that id is visible |
| Export.ExportImage | components/StoryDesigner.tsx:160-163 | with a canvas, a still export raises `isExporting` and leaves `isRecording` alone; without a canvas nothing changes |
| Export.StillWritten | components/StoryDesigner.tsx:164-170 | the still timer clears `isExporting` only |
| Export.ExportVideo | components/StoryDesigner.tsx:173-177 | a video export while recording, or without a canvas, changes nothing; otherwise it raises `isRecording` |
| Export.RecorderStopped | components/StoryDesigner.tsx:183-191 | the recorder's stop handler clears `isRecording` only |
| Export.Save | components/StoryDesigner.tsx:235-237 | SAVE does nothing while either flag is set; otherwise it exports a video when the background is a video and a still otherwise |
| Export.ModeStep | components/StoryDesigner.tsx:160-195 | the abstract machine enters Recording only from Idle |
| Export.StepRefinesMode | components/StoryDesigner.tsx:160-195 | every flag transition keeps at most one export running and moves Idle / ExportingStill / Recording exactly as the state machine does |
| Export.NoReentrantRecording | components/StoryDesigner.tsx:175 | while recording, both a SAVE click and a direct video export are no-ops |
| Export.RunRefinesMode | components/StoryDesigner.tsx:160-195 | over any event sequence the flags never show two exports at once and track the state machine step for step |
| Composer.KindOfMime | components/StoryDesigner.tsx:59 | a file is a video exactly when its MIME type starts with `video/`, and an image otherwise |
| Composer.Open | components/StoryDesigner.tsx:35-45 | a new session satisfies the invariant, has no selection, no background and no export, and its layers carry the three strings |
| Composer.Apply | components/StoryDesigner.tsx:55-66 | no action adds, removes or reorders layers; only drag, visibility and style actions touch layers, only select/deselect the selection, only the filter picker and slider the filter, only an upload the background, and only SAVE and the export completions the flags; pressing a layer that has a hit region selects it and pressing one without changes nothing; deselecting clears the selection; an upload of a file sets the background kind from its MIME type and a cancelled upload changes nothing; the eye button flips only its layer's `visible` (ids unique); picking a preset takes its name and expression; the slider sets the intensity unless the filter is "Normal"; the still timer clears only `isExporting` and the recorder's stop only `isRecording`; SAVE without a canvas changes nothing |
| Composer.SelectOnlyVisible | components/StoryDesigner.tsx:254-268 | pressing a visible layer selects it, and a press that newly selects a layer only happens when that layer is visible |
| Composer.StyleEdits | components/StoryDesigner.tsx:340-381 | each style control changes exactly its one field: font, colour, size by minus (`SizeDown`), plus (`SizeUp`) or slider, the box flag flipped, and the box opacity only while the box is on |
| Composer.EditChangesOnlySelected | components/StoryDesigner.tsx:333-381 | a style control changes nothing without a selected layer; otherwise only the layer with the selected id changes, by the control's patch computed from that layer, and the selection and filter are kept |
| Composer.ApplyPreservesInv | components/StoryDesigner.tsx:254-381 | every action keeps the ids {phrase, hours, phone} in order, positions in [5, 95], sizes in [10, 150], box opacity in [0, 1], intensity in [0, 100] and at most one export running |
| Composer.RunPreservesInv | components/StoryDesigner.tsx:38-45 | the invariant holds after any sequence of user actions |
| Composer.TouchMoveMovesOnlySelected | components/StoryDesigner.tsx:197-204 | a drag with no selection leaves all layers unchanged; with a selection only that layer changes, and its x and y become exactly the clamped touch percentages |
| Composer.SaveRoutesByBackground | components/StoryDesigner.tsx:235-237 | SAVE is ignored while a flag is set; otherwise it starts recording if and only if the background is a video, and a still export if and only if it is not |
| Composer.FrameIgnoresSelection | components/StoryDesigner.tsx:68-151 | the drawn frame does not depend on which layer is selected |
| Hashtags.ToggleTag | App.tsx:72-74 | length, order, ids and tags are kept, and `selected` flips exactly on the entries with the id |
| Hashtags.ToggleTagTwice | App.tsx:72-74 | toggling the same id twice restores the list |
| Hashtags.AddTag | App.tsx:76-86 | blank input changes nothing; a tag already present ignoring case leaves the list and clears the field; otherwise one selected entry with the cleaned tag is prepended |
| Hashtags.AddTagKeepsTagsUnique | App.tsx:78-85 | adding keeps the tags pairwise distinct ignoring case |
| Hashtags.AddTagHashOnly | App.tsx:77-78 | the blank check runs before `#` removal, so input `#` adds an empty tag unless one is present |
| Hashtags.CleanTagStripsFirstHash | App.tsx:78 | only the first `#` is removed before trimming |
| Hashtags.RemoveTag | App.tsx:88-90 | the result holds exactly the entries whose id differs, each as many times as before, as a subsequence of the original; an absent id removes nothing |
| Hashtags.RemoveUndoesAdd | App.tsx:83-90 | removing the entry that adding prepends, by its id, restores the list when that id was fresh |
| Hashtags.SelectedTagsString | App.tsx:104-107 | the selected-tags string is empty exactly when no tag is selected |
| Hashtags.SelectedTagsStringIsJoin | App.tsx:104-107 | the string is the selected tags in list order, each prefixed with `#`, joined by single spaces |
| Post.FlipPeriod | App.tsx:100 | AM becomes PM and every other value becomes AM |
| Post.TogglePeriod | App.tsx:96-102 | only the targeted period field flips; the other three fields are kept |
| Post.TogglePeriodTwice | App.tsx:96-102 | on AM/PM values the toggle is an involution |
| Post.FormatHoursString | App.tsx:92-94 | the sentence starts with `We're open from `, ends with ` today.`, has the length of its parts, a space after the opening time, the opening period after it and the closing period right before ` today.` |
| Post.FormatHoursFields | App.tsx:92-94 | each of the four fields sits at its own place: the opening time after the prefix, the opening period after a space, then ` to `, the closing time and a space, then the closing period before the suffix |
| Post.InitialHoursSentence | App.tsx:43-48 | before any edit the page shows `We're open from 12 PM to 6:30 PM today.` |
| Post.FormatReflectsToggle | App.tsx:92-102 | flipping either period always changes the hours sentence |
| Post.FullOverview | App.tsx:109-117 | the overview is empty without a generated result and otherwise starts with the phrase's opening bracket |
| Post.FullOverviewWithoutTags | App.tsx:109-117 | with no selected tag, trimming removes the empty tag paragraph and the overview ends with the hours sentence |
| Post.FullOverviewWithTags | App.tsx:109-117 | when the selected-tags string is non-empty and ends in a non-whitespace character, the overview is the core text, a blank line, and that string |
| Hashtags.AddTagKeepsTagsTrimmed | App.tsx:78-84 | adding keeps every stored tag free of trailing whitespace, because the stored tag is trimmed |
| Hashtags.SelectedTagsEndVisible | App.tsx:104-107 | over such tags, a non-empty selected-tags string ends in a non-whitespace character |
| Post.FullOverviewOfTrimmedTags | App.tsx:104-117 | with trimmed tags and at least one selected, the overview is the core text, a blank line, and the selected-tags string |
| Text.TrimEmptyIffBlank | App.tsx:77 | `!s.trim()` holds exactly when every character is whitespace |
| Text.RemoveFirst | App.tsx:78 | `replace('#', '')` removes the first `#` only, and leaves strings without `#` unchanged |
| Text.ParseNatToString | components/StoryDesigner.tsx:80 | the decimal rendering used in template strings reads back to the same number |

## Left out

- Canvas calls, `measureText` (a `measure` parameter stands for it), image decoding and `img.complete`, and the `requestAnimationFrame` loop. These are browser graphics; a frame is a list of draw commands.
- The early return in `draw` when the canvas or its 2D context is missing. The draw plan assumes a canvas. The export functions take `canvasReady` for their own early return.
- `MediaRecorder`, `captureStream`, Blob assembly, the 100 ms and 8 s timers and the download links. These are asynchronous browser media and I/O. Only the flag transitions are kept; the timer callbacks are the events `StillDone` and `RecordingDone`.
- `URL.createObjectURL`, the background URL and `localStorage` persistence of hashtags (App.tsx:38-41, 56-58). These are resource and I/O concerns. The background is kept only as its kind.
- The text-generation service, the clipboard button, React mounting, the `prompt`, phone and hours text inputs, the active tab, and all JSX layout and styling.
- IEEE-754 arithmetic. Percentages and geometry are `real`.
- Composer.Apply: a touch move is accepted only with a defined position on both axes, even with no layer selected. The source returns before dividing in that case (components/StoryDesigner.tsx:198), and `Layers.MoveSelected` itself asks for a defined position only when a layer is selected; action validity in the composer does not depend on the state.
- Layers.TouchPercent: requires a touch target of non-negative extent, and a touch off the origin when the extent is zero. On a zero-size element a touch exactly at its origin computes 0 / 0, and the NaN that the clamp passes through cannot be represented in `real`. A touch off the origin of a zero-size element is modelled: it divides to an infinity, which the clamp turns into 5 or 95.
- Render.DrawPlan: requires a drawable background to have positive intrinsic width and height. A video without loaded metadata reports 0, and JavaScript would compute an infinite scale.
- Layer ids are an enumeration rather than strings. A patch cannot name `id`, `text` or `bgColor`, because no call site updates them.
- Text.ToLower: lowers ASCII letters only. JavaScript's `toLowerCase` also maps non-ASCII letters, so the case-insensitive duplicate test is modelled for ASCII.
- Hashtag ids come from `Date.now()` and are taken as a parameter. Nothing keeps them unique, and `RemoveTag` removes every entry carrying the id.
- Only `touches[0]` of a touch event is used. Its client coordinates are parameters.

=== FILE: composer.dfy ===
/** A composer session: the three layers, the selection, the filter, the background kind and
    the export flags, and every user action on them. */
module Composer {

  import opened Options
  import opened Text
  import opened Layers
  import Filters
  import Export
  import Render

  /** What an uploaded background is drawn as. */
  datatype MediaKind = ImageMedia | VideoMedia

  /** The part of an uploaded file the composer looks at: its MIME type. */
  datatype UploadedFile = UploadedFile(mimeType: string)

  /** A file whose MIME type starts with `video/` is a video; every other file is an image. */
  function KindOfMime(mime: string): (k: MediaKind)
    ensures k == VideoMedia <==> StartsWith(mime, "video/")
  {
    if StartsWith(mime, "video/") then VideoMedia else ImageMedia
  }

  datatype State = State(
    layers: seq<Layer>,
    selected: Option<LayerId>,
    filter: Filters.Filter,
    background: Option<MediaKind>,
    flags: Export.Flags)

  /** A layer whose fields lie in the ranges the controls can produce. */
  predicate LayerOk(l: Layer) {
    && MinPercent <= l.x <= MaxPercent && MinPercent <= l.y <= MaxPercent
    && 10 <= l.size <= 150
    && 0.0 <= l.bgOpacity <= 1.0
  }

  /** The session invariant: exactly the three fixed layers in their fixed order, each within
      range, a filter intensity in [0, 100] and at most one export in progress. */
  predicate Inv(st: State) {
    && Ids(st.layers) == [Phrase, Hours, Phone]
    && (forall i :: 0 <= i < |st.layers| ==> LayerOk(st.layers[i]))
    && 0 <= st.filter.intensity <= 100
    && Export.Valid(st.flags)
  }

  /** Opening the composer from the three external strings. */
  function Open(phrase: string, hours: string, phone: string): (st: State)
    ensures Inv(st)
    ensures st.selected.None? && st.background.None? && Export.ModeOf(st.flags) == Export.Idle
    ensures st.layers[0].text == phrase && st.layers[1].text == hours && st.layers[2].text == phone
  {
    State(InitialLayers(phrase, hours, phone), None, Filters.InitialFilter, None, Export.NoExport)
  }

  /** A style control of the text panel, acting on the selected layer. */
  datatype Style =
    | SetFont(font: Font)
    | SetColor(color: string)
    | SizeMinus
    | SizePlus
    | SetSize(size: int)
    | ToggleBox
    | SetBoxOpacity(opacity: real)

  /** The patch a style control applies to layer `el`. The opacity slider is shown only while
      the layer's box is on, so without a box it changes nothing. */
  function StylePatch(el: Layer, s: Style): Patch {
    match s
    case SetFont(f) => NoChange.(font := Some(f))
    case SetColor(c) => NoChange.(color := Some(c))
    case SizeMinus => NoChange.(size := Some(SizeDown(el.size)))
    case SizePlus => NoChange.(size := Some(SizeUp(el.size)))
    case SetSize(v) => NoChange.(size := Some(v))
    case ToggleBox => NoChange.(hasBackground := Some(!el.hasBackground))
    case SetBoxOpacity(v) => if el.hasBackground then NoChange.(bgOpacity := Some(v)) else NoChange
  }

  /** What each style control does to the layer it edits: exactly one field changes, the size
      buttons step by `SizeDown` and `SizeUp`, and the opacity slider acts only on a boxed layer. */
  lemma StyleEdits(el: Layer, s: Style)
    ensures var r := Merge(el, StylePatch(el, s));
      match s
      case SetFont(f) => r == el.(font := f)
      case SetColor(c) => r == el.(color := c)
      case SizeMinus => r == el.(size := SizeDown(el.size))
      case SizePlus => r == el.(size := SizeUp(el.size))
      case SetSize(v) => r == el.(size := v)
      case ToggleBox => r == el.(hasBackground := !el.hasBackground)
      case SetBoxOpacity(v) => r == if el.hasBackground then el.(bgOpacity := v) else el
  {
  }

  /** Every user action of the composer. */
  datatype Action =
    | TouchMove(clientX: real, clientY: real, rect: Rect)
    | SelectLayer(id: LayerId)
    | ClearSelection
    | ToggleVisibility(id: LayerId)
    | Edit(style: Style)
    | PickFilter(preset: Filters.Preset)
    | Intensity(value: int)
    | Upload(file: Option<UploadedFile>)
    | SaveClicked(canvasReady: bool)
    | StillDone
    | RecordingDone

  /** The values the controls can deliver: a touch with a defined position on its target,
      slider values within their slider's range, and filters from the picker. */
  predicate ValidAction(a: Action) {
    match a
    case TouchMove(cx, cy, rect) => TouchDefined(cx, rect.left, rect.width) && TouchDefined(cy, rect.top, rect.height)
    case Edit(SetSize(v)) => 10 <= v <= 150
    case Edit(SetBoxOpacity(v)) => 0.0 <= v <= 1.0
    case PickFilter(p) => p in Filters.Presets
    case Intensity(v) => 0 <= v <= 100
    case _ => true
  }

  /** The export event a SAVE click or completion raises; SAVE routes by background kind. */
  function ExportEventOf(st: State, a: Action): Export.Event
    requires a.SaveClicked? || a.StillDone? || a.RecordingDone?
  {
    match a
    case SaveClicked(ready) => Export.SaveClicked(st.background == Some(VideoMedia), ready)
    case StillDone => Export.StillDone
    case RecordingDone => Export.RecordingDone
  }

  /** One user action. A layer is selected by pressing its hit region, so only a layer that
      has one can be selected; the style panel acts only while the selected layer exists; the
      intensity slider only while the filter is not "Normal". Each action touches only its
      own part of the state. */
  function Apply(st: State, a: Action): (r: State)
    requires ValidAction(a)
    ensures Ids(r.layers) == Ids(st.layers)
    ensures !(a.TouchMove? || a.ToggleVisibility? || a.Edit?) ==> r.layers == st.layers
    ensures !(a.SelectLayer? || a.ClearSelection?) ==> r.selected == st.selected
    ensures !(a.PickFilter? || a.Intensity?) ==> r.filter == st.filter
    ensures !a.Upload? ==> r.background == st.background
    ensures !(a.SaveClicked? || a.StillDone? || a.RecordingDone?) ==> r.flags == st.flags
    ensures a.SelectLayer? && Render.Hittable(st.layers, a.id) ==> r.selected == Some(a.id)
    ensures a.SelectLayer? && !Render.Hittable(st.layers, a.id) ==> r == st
    ensures a.ClearSelection? ==> r.selected.None?
    ensures a.Upload? && a.file.None? ==> r == st
    ensures a.Upload? && a.file.Some? ==> r.background == Some(KindOfMime(a.file.value.mimeType))
    ensures a.ToggleVisibility? && UniqueIds(st.layers) ==> forall i :: 0 <= i < |st.layers| ==>
      r.layers[i] == if st.layers[i].id == a.id then st.layers[i].(visible := !st.layers[i].visible) else st.layers[i]
    ensures a.PickFilter? ==> r.filter == st.filter.(name := a.preset.name, expr := a.preset.expr)
    ensures a.Intensity? ==> r.filter == if st.filter.name == Filters.NormalName then st.filter else st.filter.(intensity := a.value)
    ensures a.StillDone? ==> r.flags == st.flags.(exporting := false)
    ensures a.RecordingDone? ==> r.flags == st.flags.(recording := false)
    ensures a.SaveClicked? && !a.canvasReady ==> r == st
  {
    match a
    case TouchMove(cx, cy, rect) => st.(layers := MoveSelected(st.layers, st.selected, cx, cy, rect))
    case SelectLayer(id) => if Render.Hittable(st.layers, id) then st.(selected := Some(id)) else st
    case ClearSelection => st.(selected := None)
    case ToggleVisibility(id) => st.(layers := ToggleVisible(st.layers, id))
    case Edit(s) =>
      if st.selected.None? then st
      else
        (match Find(st.layers, st.selected.value)
         case None => st
         case Some(el) => st.(layers := UpdateElement(st.layers, st.selected.value, StylePatch(el, s))))
    case PickFilter(p) => st.(filter := Filters.Choose(st.filter, p))
    case Intensity(v) => st.(filter := Filters.SetIntensity(st.filter, v))
    case Upload(file) =>
      if file.None? then st else st.(background := Some(KindOfMime(file.value.mimeType)))
    case _ => st.(flags := Export.Step(st.flags, ExportEventOf(st, a)))
  }

  /** A patch whose fields lie in the ranges of `LayerOk`. */
  predicate PatchOk(p: Patch) {
    && (p.x.Some? ==> MinPercent <= p.x.value <= MaxPercent)
    && (p.y.Some? ==> MinPercent <= p.y.value <= MaxPercent)
    && (p.size.Some? ==> 10 <= p.size.value <= 150)
    && (p.bgOpacity.Some? ==> 0.0 <= p.bgOpacity.value <= 1.0)
  }

  lemma UpdateKeepsLayersOk(layers: seq<Layer>, id: LayerId, p: Patch)
    requires forall i :: 0 <= i < |layers| ==> LayerOk(layers[i])
    requires PatchOk(p)
    ensures forall i :: 0 <= i < |layers| ==> LayerOk(UpdateElement(layers, id, p)[i])
  {
  }

  /** Every valid action preserves the session invariant: in particular the layer set stays
      exactly {phrase, hours, phone} in that order, and dragged or resized layers stay in range. */
  lemma ApplyPreservesInv(st: State, a: Action)
    requires Inv(st) && ValidAction(a)
    ensures Inv(Apply(st, a))
  {
    match a
    case TouchMove(cx, cy, rect) =>
      if st.selected.Some? {
        var px := TouchPercent(cx, rect.left, rect.width);
        var py := TouchPercent(cy, rect.top, rect.height);
        UpdateKeepsLayersOk(st.layers, st.selected.value, NoChange.(x := Some(px), y := Some(py)));
      }
    case ToggleVisibility(id) =>
      match Find(st.layers, id) {
        case None =>
        case Some(el) => UpdateKeepsLayersOk(st.layers, id, NoChange.(visible := Some(!el.visible)));
      }
    case Edit(s) =>
      if st.selected.Some? {
        match Find(st.layers, st.selected.value) {
          case None =>
          case Some(el) =>
            assert LayerOk(el);
            UpdateKeepsLayersOk(st.layers, st.selected.value, StylePatch(el, s));
        }
      }
    case StillDone => Export.StepRefinesMode(st.flags, Export.StillDone);
    case RecordingDone => Export.StepRefinesMode(st.flags, Export.RecordingDone);
    case SaveClicked(ready) => Export.StepRefinesMode(st.flags, ExportEventOf(st, a));
    case _ =>
  }

  /** All actions of a sequence are valid. */
  predicate AllValid(actions: seq<Action>) {
    forall i :: 0 <= i < |actions| ==> ValidAction(actions[i])
  }

  /** The state after a sequence of actions. */
  function Run(st: State, actions: seq<Action>): State
    requires AllValid(actions)
    decreases |actions|
  {
    if |actions| == 0 then st else Run(Apply(st, actions[0]), actions[1..])
  }

  /** A whole session keeps the invariant: from `Open`, whatever the user does, the composer
      holds exactly its three layers and no two exports overlap. */
  lemma {:induction false} RunPreservesInv(st: State, actions: seq<Action>)
    requires Inv(st) && AllValid(actions)
    ensures Inv(Run(st, actions))
    decreases |actions|
  {
    if |actions| > 0 {
      ApplyPreservesInv(st, actions[0]);
      RunPreservesInv(Apply(st, actions[0]), actions[1..]);
    }
  }

  /** A touch move with no selected layer leaves the layers unchanged; with one, only that
      layer moves, to the clamped percentage position of the touch on both axes. */
  lemma TouchMoveMovesOnlySelected(st: State, cx: real, cy: real, rect: Rect)
    requires TouchDefined(cx, rect.left, rect.width) && TouchDefined(cy, rect.top, rect.height)
    ensures var r := Apply(st, TouchMove(cx, cy, rect));
      && (st.selected.None? ==> r.layers == st.layers)
      && (st.selected.Some? ==> forall i :: 0 <= i < |r.layers| ==>
            if st.layers[i].id == st.selected.value then
              r.layers[i] == st.layers[i].(x := TouchPercent(cx, rect.left, rect.width),
                                           y := TouchPercent(cy, rect.top, rect.height))
            else r.layers[i] == st.layers[i])
  {
    var r := Apply(st, TouchMove(cx, cy, rect));
    assert forall i :: 0 <= i < |r.layers| ==> r.layers[i].id == Ids(r.layers)[i] == Ids(st.layers)[i] == st.layers[i].id;
  }

  /** Pressing a layer on the canvas selects it exactly when a layer with that id is visible;
      an invisible layer has no hit region and cannot be selected. */
  lemma SelectOnlyVisible(st: State, id: LayerId)
    ensures var r := Apply(st, SelectLayer(id));
      (exists i :: 0 <= i < |st.layers| && st.layers[i].id == id && st.layers[i].visible) ==> r.selected == Some(id)
    ensures var r := Apply(st, SelectLayer(id));
      r.selected == Some(id) && st.selected != Some(id) ==>
        exists i :: 0 <= i < |st.layers| && st.layers[i].id == id && st.layers[i].visible
  {
    Render.HittableIffVisible(st.layers, id);
  }

  /** A style control edits the selected layer and nothing else: with no selection, or no
      layer carrying the selected id, nothing changes; otherwise every layer with that id gets
      the control's patch, computed from the selected layer, and every other layer is kept. */
  lemma EditChangesOnlySelected(st: State, s: Style)
    requires ValidAction(Edit(s))
    ensures st.selected.None? ==> Apply(st, Edit(s)) == st
    ensures st.selected.Some? && Find(st.layers, st.selected.value).None? ==> Apply(st, Edit(s)) == st
    ensures st.selected.Some? ==> forall i :: 0 <= i < |st.layers| && st.layers[i].id != st.selected.value ==>
      Apply(st, Edit(s)).layers[i] == st.layers[i]
    ensures st.selected.Some? && UniqueIds(st.layers) ==> forall i :: 0 <= i < |st.layers| && st.layers[i].id == st.selected.value ==>
      Apply(st, Edit(s)).layers[i] == Merge(st.layers[i], StylePatch(st.layers[i], s))
    ensures Apply(st, Edit(s)).selected == st.selected && Apply(st, Edit(s)).filter == st.filter
  {
    if st.selected.Some? {
      var r := Apply(st, Edit(s));
      assert |r.layers| == |st.layers| by {
        assert |Ids(r.layers)| == |Ids(st.layers)|;
      }
    }
  }

  /** SAVE is ignored while an export is in progress, and otherwise starts a video export
      exactly when the background is a video. */
  lemma SaveRoutesByBackground(st: State, ready: bool)
    ensures var r := Apply(st, SaveClicked(ready));
      && (!Export.SaveEnabled(st.flags) ==> r == st)
      && (Export.SaveEnabled(st.flags) && ready ==>
            (r.flags.recording <==> st.background == Some(VideoMedia))
            && (r.flags.exporting <==> st.background != Some(VideoMedia)))
  {
  }

  /** The frame the compositor draws for this state. `ready` is the decoded size of the
      background once it can be drawn (`img.complete`, or the video element present). */
  function Frame(st: State, ready: Option<(real, real)>, measure: (string, string) -> real): seq<Render.Command>
    requires Render.ValidBackdrop(Render.Media(ready))
  {
    var b := if st.background.None? then Render.NoBackdrop else Render.Media(ready);
    Render.DrawPlan(b, st.filter, st.layers, measure)
  }

  /** Selection drives dragging and the style panel but not what is drawn. */
  lemma FrameIgnoresSelection(st: State, sel: Option<LayerId>, ready: Option<(real, real)>, measure: (string, string) -> real)
    requires Render.ValidBackdrop(Render.Media(ready))
    ensures Frame(st.(selected := sel), ready, measure) == Frame(st, ready, measure)
  {
  }
}

=== FILE: cover.dfy ===
/** Cover scaling: a source of size `sw` x `sh` is scaled uniformly so that it fills a
    `cw` x `ch` canvas, and centred, so that the overflow is cropped equally on both sides. */
module Cover {

  import Layers

  /** Where the scaled source is drawn: top-left corner and drawn size. */
  datatype Placement = Placement(x: real, y: real, w: real, h: real)

  /** `Math.max(cw / sw, ch / sh)`: the smaller of the two scale factors that each fill
      one dimension exactly would leave a gap in the other. */
  function CoverScale(cw: real, ch: real, sw: real, sh: real): (s: real)
    requires cw > 0.0 && ch > 0.0 && sw > 0.0 && sh > 0.0
    ensures s > 0.0
    ensures s >= cw / sw && s >= ch / sh
    ensures s == cw / sw || s == ch / sh
  {
    Layers.Max(cw / sw, ch / sh)
  }

  /** The draw rectangle `(cw/2 - sw/2*s, ch/2 - sh/2*s, sw*s, sh*s)`. */
  function CoverPlacement(cw: real, ch: real, sw: real, sh: real): (p: Placement)
    requires cw > 0.0 && ch > 0.0 && sw > 0.0 && sh > 0.0
  {
    var s := CoverScale(cw, ch, sw, sh);
    Placement(cw / 2.0 - (sw / 2.0) * s, ch / 2.0 - (sh / 2.0) * s, sw * s, sh * s)
  }

  lemma ScaledCovers(c: real, src: real, s: real)
    requires c > 0.0 && src > 0.0 && s >= c / src
    ensures src * s >= c
  {
    assert src * (c / src) == c;
    assert src * s - src * (c / src) == src * (s - c / src);
  }

  /** The placed source covers the whole canvas (no gap on any side), is centred on it,
      keeps the source's aspect ratio, and fills at least one dimension exactly. */
  lemma {:induction false} CoverPlacementCovers(cw: real, ch: real, sw: real, sh: real)
    requires cw > 0.0 && ch > 0.0 && sw > 0.0 && sh > 0.0
    ensures var p := CoverPlacement(cw, ch, sw, sh);
      && p.w >= cw && p.h >= ch
      && p.x <= 0.0 && p.x + p.w >= cw
      && p.y <= 0.0 && p.y + p.h >= ch
      && p.x + p.w / 2.0 == cw / 2.0 && p.y + p.h / 2.0 == ch / 2.0
      && p.w * sh == p.h * sw
      && (p.w == cw || p.h == ch)
  {
    var s := CoverScale(cw, ch, sw, sh);
    var p := CoverPlacement(cw, ch, sw, sh);
    ScaledCovers(cw, sw, s);
    ScaledCovers(ch, sh, s);
    assert p.w == sw * s && p.h == sh * s;
    assert p.x == (cw - p.w) / 2.0;
    assert p.y == (ch - p.h) / 2.0;
    assert (sw * s) * sh == (sh * s) * sw;
    if s == cw / sw {
      assert sw * (cw / sw) == cw;
    } else {
      assert sh * (ch / sh) == ch;
    }
  }
}

=== FILE: export.dfy ===
/** The export guard: the two flags `isExporting` and `isRecording`, the SAVE button that
    reads them, and the three-state machine (Idle, ExportingStill, Recording) they implement. */
module Export {

  /** The composer's two export flags. */
  datatype Flags = Flags(exporting: bool, recording: bool)

  const NoExport: Flags := Flags(false, false)

  /** `exportImage`: with a canvas, raises `isExporting`; the still is written by a timer
      that later clears it. Without a canvas nothing happens. */
  function ExportImage(f: Flags, canvasReady: bool): (r: Flags)
    ensures r.recording == f.recording
    ensures canvasReady ==> r.exporting
    ensures !canvasReady ==> r == f
  {
    if !canvasReady then f else f.(exporting := true)
  }

  /** The still-export timer callback: the download is triggered and `isExporting` cleared. */
  function StillWritten(f: Flags): (r: Flags)
    ensures !r.exporting && r.recording == f.recording
  {
    f.(exporting := false)
  }

  /** `exportVideo`: a no-op while recording or without a canvas; otherwise raises
      `isRecording` and starts the fixed-length capture. */
  function ExportVideo(f: Flags, canvasReady: bool): (r: Flags)
    ensures r.exporting == f.exporting
    ensures f.recording || !canvasReady ==> r == f
    ensures !f.recording && canvasReady ==> r.recording
  {
    if !canvasReady || f.recording then f else f.(recording := true)
  }

  /** The recorder's stop handler, run when the capture timer stops it: the video is
      downloaded and `isRecording` cleared. */
  function RecorderStopped(f: Flags): (r: Flags)
    ensures !r.recording && r.exporting == f.exporting
  {
    f.(recording := false)
  }

  /** SAVE is enabled only while neither flag is set. */
  predicate SaveEnabled(f: Flags) {
    !f.exporting && !f.recording
  }

  /** A click on SAVE: ignored while disabled; otherwise a video background exports a video
      and anything else exports a still. */
  function Save(f: Flags, videoBackground: bool, canvasReady: bool): (r: Flags)
    ensures !SaveEnabled(f) ==> r == f
    ensures SaveEnabled(f) && videoBackground ==> r == ExportVideo(f, canvasReady)
    ensures SaveEnabled(f) && !videoBackground ==> r == ExportImage(f, canvasReady)
  {
    if !SaveEnabled(f) then f
    else if videoBackground then ExportVideo(f, canvasReady)
    else ExportImage(f, canvasReady)
  }

  /** The events that move the export flags. */
  datatype Event = SaveClicked(videoBackground: bool, canvasReady: bool) | StillDone | RecordingDone

  function Step(f: Flags, e: Event): Flags {
    match e
    case SaveClicked(video, ready) => Save(f, video, ready)
    case StillDone => StillWritten(f)
    case RecordingDone => RecorderStopped(f)
  }

  /** The abstract export state. */
  datatype Mode = Idle | ExportingStill | Recording

  /** At most one export is in progress. */
  predicate Valid(f: Flags) {
    !(f.exporting && f.recording)
  }

  function ModeOf(f: Flags): Mode {
    if f.recording then Recording else if f.exporting then ExportingStill else Idle
  }

  /** The state machine the flags implement: SAVE leaves Idle for Recording (video background)
      or ExportingStill (otherwise) and is ignored in every other state; each completion
      event returns its own state to Idle and is ignored elsewhere. */
  function ModeStep(m: Mode, e: Event): (r: Mode)
    ensures r == Recording && m != Recording ==> m == Idle
  {
    match e
    case SaveClicked(video, ready) =>
      if m != Idle || !ready then m else if video then Recording else ExportingStill
    case StillDone => if m == ExportingStill then Idle else m
    case RecordingDone => if m == Recording then Idle else m
  }

  /** Every flag transition keeps at most one export in progress and moves the abstract state
      exactly as the state machine does. */
  lemma StepRefinesMode(f: Flags, e: Event)
    requires Valid(f)
    ensures Valid(Step(f, e))
    ensures ModeOf(Step(f, e)) == ModeStep(ModeOf(f), e)
  {
  }

  /** A SAVE click during a recording changes nothing, and a video export started outside the
      button while recording is rejected too. */
  lemma NoReentrantRecording(f: Flags, video: bool, ready: bool)
    requires f.recording
    ensures Step(f, SaveClicked(video, ready)) == f
    ensures ExportVideo(f, ready) == f
  {
  }

  /** The flags after a sequence of events. */
  function Run(f: Flags, events: seq<Event>): Flags
    decreases |events|
  {
    if |events| == 0 then f else Run(Step(f, events[0]), events[1..])
  }

  /** The abstract state after a sequence of events. */
  function RunMode(m: Mode, events: seq<Event>): Mode
    decreases |events|
  {
    if |events| == 0 then m else RunMode(ModeStep(m, events[0]), events[1..])
  }

  /** From a session that starts with no export, any event sequence keeps at most one export in
      progress, and the flags track the three-state machine step for step. */
  lemma {:induction false} RunRefinesMode(f: Flags, events: seq<Event>)
    requires Valid(f)
    ensures Valid(Run(f, events))
    ensures ModeOf(Run(f, events)) == RunMode(ModeOf(f), events)
    decreases |events|
  {
    if |events| > 0 {
      StepRefinesMode(f, events[0]);
      RunRefinesMode(Step(f, events[0]), events[1..]);
    }
  }
}

=== FILE: filters.dfy ===
/** The background filter: a named tone expression and an intensity, and the canvas
    filter string the compositor derives from them. */
module Filters {

  import opened Options
  import opened Text

  /** The active filter. `intensity` is a percentage set by a 0..100 slider. */
  datatype Filter = Filter(name: string, expr: string, intensity: int)

  /** One entry of the filter picker. */
  datatype Preset = Preset(name: string, expr: string)

  const NormalName: string := "Normal"

  const Presets: seq<Preset> := [
    Preset(NormalName, "none"),
    Preset("Warm", "sepia(0.5) saturate(1.4)"),
    Preset("Cool", "hue-rotate(180deg) saturate(1.2)"),
    Preset("Vivid", "saturate(2) contrast(1.1)"),
    Preset("B&W", "grayscale(1) contrast(1.2)"),
    Preset("Dreamy", "blur(2px) brightness(1.1) saturate(1.3)")
  ]

  /** The filter a composer session opens with. */
  const InitialFilter: Filter := Filter(NormalName, "none", 100)

  /** Picking a preset: takes its name and expression and keeps the current intensity. */
  function Choose(current: Filter, p: Preset): (r: Filter)
    ensures r.intensity == current.intensity
    ensures r.name == p.name && r.expr == p.expr
  {
    current.(name := p.name, expr := p.expr)
  }

  /** The intensity slider, which is only shown while the filter is not "Normal". */
  function SetIntensity(current: Filter, v: int): (r: Filter)
    requires 0 <= v <= 100
    ensures r.name == current.name && r.expr == current.expr
    ensures current.name == NormalName ==> r == current
    ensures current.name != NormalName ==> r.intensity == v
  {
    if current.name == NormalName then current else current.(intensity := v)
  }

  /** The suffix appended to the expression to attenuate the filtered background. */
  function OpacityTerm(intensity: int): string {
    " opacity(" + IntToString(intensity) + "%)"
  }

  /** The value assigned to the canvas `filter` before drawing the background;
      `None` means the canvas filter is left untouched ("Normal"). */
  function CanvasFilter(f: Filter): (r: Option<string>)
    ensures r.None? <==> f.name == NormalName
    ensures r.Some? ==> StartsWith(r.value, f.expr) && EndsWith(r.value, "%)")
  {
    if f.name != NormalName then
      var s := f.expr + OpacityTerm(f.intensity);
      assert s[..|f.expr|] == f.expr;
      assert s[|s| - 2..] == "%)";
      Some(s)
    else
      None
  }

  /** Index at which the trailing run of digits of `s` begins. */
  function DigitRunStart(s: string): (k: nat)
    ensures k <= |s|
    ensures forall i :: k <= i < |s| ==> IsDigit(s[i])
    ensures k > 0 ==> !IsDigit(s[k - 1])
  {
    if |s| == 0 || !IsDigit(s[|s| - 1]) then |s| else DigitRunStart(s[..|s| - 1])
  }

  lemma {:induction false} DigitRunStartAppend(p: string, d: string)
    requires |p| > 0 && !IsDigit(p[|p| - 1])
    requires forall i :: 0 <= i < |d| ==> IsDigit(d[i])
    ensures DigitRunStart(p + d) == |p|
  {
    if |d| > 0 {
      assert (p + d)[..|p + d| - 1] == p + d[..|d| - 1];
      DigitRunStartAppend(p, d[..|d| - 1]);
    } else {
      assert p + d == p;
    }
  }

  const OpacityOpen: string := " opacity("

  /** Reads an expression and a non-negative intensity back out of a canvas filter string. */
  function ParseCanvasFilter(s: string): Option<(string, nat)> {
    if |s| < 2 || s[|s| - 2..] != "%)" then None
    else
      var body := s[..|s| - 2];
      var k := DigitRunStart(body);
      var pre := body[..k];
      if k == |body| || |pre| < |OpacityOpen| || pre[|pre| - |OpacityOpen|..] != OpacityOpen then None
      else Some((pre[..|pre| - |OpacityOpen|], ParseNat(body[k..])))
  }

  /** For any active (non-"Normal") filter with a non-negative intensity, the canvas filter
      string determines the expression and the intensity: they can be read back from it. */
  lemma {:induction false} CanvasFilterRoundTrip(f: Filter)
    requires f.name != NormalName && f.intensity >= 0
    ensures ParseCanvasFilter(CanvasFilter(f).value) == Some((f.expr, f.intensity))
  {
    var digits := NatToString(f.intensity);
    var pre := f.expr + OpacityOpen;
    var s := CanvasFilter(f).value;
    assert s == pre + digits + "%)";
    var body := s[..|s| - 2];
    assert body == pre + digits;
    assert pre[|pre| - 1] == '(';
    DigitRunStartAppend(pre, digits);
    assert body[..|pre|] == pre;
    assert body[|pre|..] == digits;
    assert pre[|pre| - |OpacityOpen|..] == OpacityOpen;
    assert pre[..|pre| - |OpacityOpen|] == f.expr;
    ParseNatToString(f.intensity);
  }

  /** Two active filters with non-negative intensities that produce the same canvas filter
      string agree on expression and intensity. */
  lemma CanvasFilterInjective(f: Filter, g: Filter)
    requires f.name != NormalName && g.name != NormalName
    requires f.intensity >= 0 && g.intensity >= 0
    requires CanvasFilter(f) == CanvasFilter(g)
    ensures f.expr == g.expr && f.intensity == g.intensity
  {
    CanvasFilterRoundTrip(f);
    CanvasFilterRoundTrip(g);
  }
}

=== FILE: hashtags.dfy ===
/** The hashtag list of the post editor: toggling, adding, removing, and the string of
    selected tags that is copied into the post. */
module Hashtags {

  import opened Text

  datatype Hashtag = Hashtag(id: string, tag: string, selected: bool)

  /** `toggleTag`: flips `selected` on exactly the entries with id `id`. */
  function ToggleTag(hs: seq<Hashtag>, id: string): (r: seq<Hashtag>)
    ensures |r| == |hs|
    ensures forall i :: 0 <= i < |hs| ==> r[i].id == hs[i].id && r[i].tag == hs[i].tag
    ensures forall i :: 0 <= i < |hs| ==> (r[i].selected != hs[i].selected <==> hs[i].id == id)
  {
    seq(|hs|, i requires 0 <= i < |hs| => if hs[i].id == id then hs[i].(selected := !hs[i].selected) else hs[i])
  }

  /** Toggling the same id twice restores the list. */
  lemma ToggleTagTwice(hs: seq<Hashtag>, id: string)
    ensures ToggleTag(ToggleTag(hs, id), id) == hs
  {
    var twice := ToggleTag(ToggleTag(hs, id), id);
    assert forall i :: 0 <= i < |hs| ==> twice[i] == hs[i];
  }

  /** Some entry's tag equals `t` ignoring ASCII case. */
  predicate HasTag(hs: seq<Hashtag>, t: string) {
    exists i :: 0 <= i < |hs| && SameIgnoringCase(hs[i].tag, t)
  }

  /** No two entries carry the same tag ignoring ASCII case. */
  predicate UniqueTags(hs: seq<Hashtag>) {
    forall i, j :: 0 <= i < j < |hs| ==> !SameIgnoringCase(hs[i].tag, hs[j].tag)
  }

  /** The typed text with its first `#` removed, then trimmed. */
  function CleanTag(input: string): string {
    Trim(RemoveFirst(input, '#'))
  }

  /** The hashtag list and the text field after `addTag`. */
  datatype Added = Added(tags: seq<Hashtag>, input: string)

  /** `addTag`: blank input changes nothing; a tag already present (ignoring case) only clears
      the field; any other tag is prepended, selected, with the id `now`, and clears the field. */
  function AddTag(hs: seq<Hashtag>, input: string, now: string): (r: Added)
    ensures Blank(input) ==> r == Added(hs, input)
    ensures !Blank(input) ==> r.input == []
    ensures !Blank(input) && HasTag(hs, CleanTag(input)) ==> r.tags == hs
    ensures !Blank(input) && !HasTag(hs, CleanTag(input)) ==>
      r.tags == [Hashtag(now, CleanTag(input), true)] + hs
  {
    TrimEmptyIffBlank(input);
    if Trim(input) == [] then Added(hs, input)
    else
      var clean := CleanTag(input);
      if HasTag(hs, clean) then Added(hs, [])
      else Added([Hashtag(now, clean, true)] + hs, [])
  }

  /** Adding never introduces a second spelling of a tag: case-insensitive uniqueness of the
      list is preserved. */
  lemma AddTagKeepsTagsUnique(hs: seq<Hashtag>, input: string, now: string)
    requires UniqueTags(hs)
    ensures UniqueTags(AddTag(hs, input, now).tags)
  {
    if !Blank(input) && !HasTag(hs, CleanTag(input)) {
      PrependKeepsUnique(hs, Hashtag(now, CleanTag(input), true));
    }
  }

  /** No tag ends in whitespace, as every tag `addTag` stores has been trimmed. */
  predicate TagsTrimmed(hs: seq<Hashtag>) {
    forall i :: 0 <= i < |hs| ==> hs[i].tag == [] || !IsSpace(hs[i].tag[|hs[i].tag| - 1])
  }

  /** Adding a tag keeps every tag free of trailing whitespace. */
  lemma AddTagKeepsTagsTrimmed(hs: seq<Hashtag>, input: string, now: string)
    requires TagsTrimmed(hs)
    ensures TagsTrimmed(AddTag(hs, input, now).tags)
  {
    if !Blank(input) && !HasTag(hs, CleanTag(input)) {
      var h := Hashtag(now, CleanTag(input), true);
      var r := [h] + hs;
      forall i | 0 <= i < |r| ensures r[i].tag == [] || !IsSpace(r[i].tag[|r[i].tag| - 1]) {
        if i > 0 {
          assert r[i] == hs[i - 1];
        }
      }
    }
  }

  lemma PrependKeepsUnique(hs: seq<Hashtag>, h: Hashtag)
    requires UniqueTags(hs) && !HasTag(hs, h.tag)
    ensures UniqueTags([h] + hs)
  {
    var r := [h] + hs;
    forall i, j | 0 <= i < j < |r| ensures !SameIgnoringCase(r[i].tag, r[j].tag) {
      assert r[j] == hs[j - 1];
      if i > 0 {
        assert r[i] == hs[i - 1];
      } else if SameIgnoringCase(r[i].tag, r[j].tag) {
        assert SameIgnoringCase(hs[j - 1].tag, h.tag);
        assert false;
      }
    }
  }

  /** The blank test runs before `#` is removed: input `#` is not blank, cleans to the empty
      tag, and so adds an empty tag unless one is already present. */
  lemma AddTagHashOnly(hs: seq<Hashtag>, now: string)
    ensures !Blank("#") && CleanTag("#") == []
    ensures !HasTag(hs, []) ==> AddTag(hs, "#", now) == Added([Hashtag(now, [], true)] + hs, [])
  {
    assert !IsSpace("#"[0]);
    assert RemoveFirst("#", '#') == [];
  }

  /** Only the first `#` is stripped. */
  lemma CleanTagStripsFirstHash(t: string)
    ensures CleanTag("#" + t) == Trim(t)
  {
    var s := "#" + t;
    assert s[0] == '#';
    assert FirstIndex(s, '#') == Options.Some(0);
    assert s[..0] + s[1..] == t;
  }

  /** `a` is obtained from `b` by deleting entries, keeping the rest in order. */
  predicate IsSubsequence<T(==)>(a: seq<T>, b: seq<T>)
    decreases |b|
  {
    |a| == 0 || (|b| > 0 && ((a[0] == b[0] && IsSubsequence(a[1..], b[1..])) || IsSubsequence(a, b[1..])))
  }

  /** `removeTag`: keeps exactly the entries whose id is not `id`, in their original order. */
  function RemoveTag(hs: seq<Hashtag>, id: string): (r: seq<Hashtag>)
    ensures forall h :: h in r <==> h in hs && h.id != id
    ensures IsSubsequence(r, hs)
    ensures (forall i :: 0 <= i < |hs| ==> hs[i].id != id) ==> r == hs
    ensures forall h :: multiset(r)[h] == if h.id == id then 0 else multiset(hs)[h]
  {
    if |hs| == 0 then []
    else
      var rest := RemoveTag(hs[1..], id);
      assert hs == [hs[0]] + hs[1..];
      assert multiset(hs) == multiset{hs[0]} + multiset(hs[1..]);
      if hs[0].id != id then
        var r := [hs[0]] + rest;
        assert r[1..] == rest;
        assert multiset(r) == multiset{hs[0]} + multiset(rest);
        r
      else
        rest
  }

  /** Removing the entry `addTag` prepends, by its id, restores the list when that id was
      fresh. */
  lemma RemoveUndoesAdd(hs: seq<Hashtag>, tag: string, now: string)
    requires forall i :: 0 <= i < |hs| ==> hs[i].id != now
    ensures RemoveTag([Hashtag(now, tag, true)] + hs, now) == hs
  {
    var added := [Hashtag(now, tag, true)] + hs;
    assert added[1..] == hs;
  }

  /** `selectedTagsString`, computed in one pass. */
  function SelectedTagsString(hs: seq<Hashtag>): (r: string)
    ensures r == [] <==> forall i :: 0 <= i < |hs| ==> !hs[i].selected
  {
    if |hs| == 0 then []
    else
      var rest := SelectedTagsString(hs[1..]);
      assert forall i :: 1 <= i < |hs| ==> hs[i] == hs[1..][i - 1];
      if !hs[0].selected then rest
      else if rest == [] then "#" + hs[0].tag
      else "#" + hs[0].tag + " " + rest
  }

  /** Over trimmed tags, a non-empty selected-tags string ends in a visible character: the
      last selected tag's last character, or its `#` when that tag is empty. */
  lemma {:induction false} SelectedTagsEndVisible(hs: seq<Hashtag>)
    requires TagsTrimmed(hs)
    ensures var t := SelectedTagsString(hs); t == [] || !IsSpace(t[|t| - 1])
  {
    if |hs| > 0 {
      assert TagsTrimmed(hs[1..]) by {
        assert forall i :: 0 <= i < |hs| - 1 ==> hs[1..][i] == hs[i + 1];
      }
      SelectedTagsEndVisible(hs[1..]);
      var tag := hs[0].tag;
      assert tag == [] || !IsSpace(tag[|tag| - 1]);
      var rest := SelectedTagsString(hs[1..]);
      if hs[0].selected {
        if rest == [] {
          var t := "#" + tag;
          if tag == [] {
            assert t == "#";
          } else {
            assert t[|t| - 1] == tag[|tag| - 1];
          }
        } else {
          var t := "#" + tag + " " + rest;
          assert t[|t| - 1] == rest[|rest| - 1];
        }
      }
    }
  }

  /** The selected entries, in list order. */
  function Selected(hs: seq<Hashtag>): (r: seq<Hashtag>)
    ensures |r| == 0 <==> forall i :: 0 <= i < |hs| ==> !hs[i].selected
  {
    if |hs| == 0 then []
    else
      var rest := Selected(hs[1..]);
      assert forall i :: 1 <= i < |hs| ==> hs[i] == hs[1..][i - 1];
      if hs[0].selected then [hs[0]] + rest else rest
  }

  /** Each tag with a `#` in front. */
  function Prefixed(hs: seq<Hashtag>): (r: seq<string>)
    ensures |r| == |hs|
  {
    seq(|hs|, i requires 0 <= i < |hs| => "#" + hs[i].tag)
  }

  /** The one-pass string is the reference pipeline `filter(selected)`, `map('#' + tag)`,
      `join(' ')`: the selected tags in list order, each prefixed with `#`, separated by one space. */
  lemma {:induction false} SelectedTagsStringIsJoin(hs: seq<Hashtag>)
    ensures SelectedTagsString(hs) == Join(" ", Prefixed(Selected(hs)))
  {
    if |hs| > 0 {
      SelectedTagsStringIsJoin(hs[1..]);
      var rest := Selected(hs[1..]);
      assert forall i :: 1 <= i < |hs| ==> hs[i] == hs[1..][i - 1];
      if hs[0].selected {
        var ps := Prefixed([hs[0]] + rest);
        assert ps == ["#" + hs[0].tag] + Prefixed(rest);
        assert ps[1..] == Prefixed(rest);
      }
    }
  }
}

=== FILE: layers.dfy ===
/** The composer's text layers and every update the composer applies to them.

    All mutations go through `UpdateElement`, which rewrites only the layer carrying the given
    id; no operation adds or removes a layer. */
module Layers {

  import opened Options

  /** The fixed identities of the three overlay layers. */
  datatype LayerId = Phrase | Hours | Phone

  /** The five selectable font styles. */
  datatype Font = Strong | Modern | Serif | Casual | Sans

  /** One overlay text element. `x` and `y` are percentages of the logical canvas, `size`
      is the font-size unit (the canvas font is twice as many pixels), `bgOpacity` the
      alpha of the optional backing box. */
  datatype Layer = Layer(
    id: LayerId,
    text: string,
    visible: bool,
    x: real,
    y: real,
    size: int,
    color: string,
    font: Font,
    hasBackground: bool,
    bgOpacity: real,
    bgColor: string)

  /** The three layers a composer session opens with, seeded from three external strings. */
  function InitialLayers(phrase: string, hours: string, phone: string): (r: seq<Layer>)
    ensures Ids(r) == [Phrase, Hours, Phone]
    ensures |r| == 3 && r[0].text == phrase && r[1].text == hours && r[2].text == phone
    ensures forall i :: 0 <= i < |r| ==> r[i].visible && r[i].x == 50.0 && r[i].color == "#FFFFFF" && r[i].bgColor == "#000000"
    ensures |r| == 3 && r[0].y == 30.0 && r[1].y == 75.0 && r[2].y == 82.0
    ensures |r| == 3 && r[0].size == 50 && r[1].size == 22 && r[2].size == 22
    ensures |r| == 3 && r[0].font == Strong && r[1].font == Sans && r[2].font == Sans
    ensures |r| == 3 && r[0].hasBackground && r[0].bgOpacity == 0.8
    ensures |r| == 3 && !r[1].hasBackground && !r[2].hasBackground && r[1].bgOpacity == 0.5 && r[2].bgOpacity == 0.5
  {
    [ Layer(Phrase, phrase, true, 50.0, 30.0, 50, "#FFFFFF", Strong, true, 0.8, "#000000"),
      Layer(Hours, hours, true, 50.0, 75.0, 22, "#FFFFFF", Sans, false, 0.5, "#000000"),
      Layer(Phone, phone, true, 50.0, 82.0, 22, "#FFFFFF", Sans, false, 0.5, "#000000") ]
  }

  /** The ids of `layers`, in order. */
  function Ids(layers: seq<Layer>): seq<LayerId> {
    seq(|layers|, i requires 0 <= i < |layers| => layers[i].id)
  }

  /** No two layers share an id. */
  predicate UniqueIds(layers: seq<Layer>) {
    forall i, j :: 0 <= i < j < |layers| ==> layers[i].id != layers[j].id
  }

  /** A partial update: each present field replaces the layer's field. The source's
      call sites never update `id`, `text` or `bgColor`, so a patch cannot name them. */
  datatype Patch = Patch(
    x: Option<real>,
    y: Option<real>,
    visible: Option<bool>,
    size: Option<int>,
    color: Option<string>,
    font: Option<Font>,
    hasBackground: Option<bool>,
    bgOpacity: Option<real>)

  const NoChange: Patch := Patch(None, None, None, None, None, None, None, None)

  /** The object spread `{ ...e, ...updates }`. */
  function Merge(e: Layer, p: Patch): (r: Layer)
    ensures r.id == e.id && r.text == e.text && r.bgColor == e.bgColor
    ensures p == NoChange ==> r == e
    ensures (p.x.Some? ==> r.x == p.x.value) && (p.x.None? ==> r.x == e.x)
    ensures (p.y.Some? ==> r.y == p.y.value) && (p.y.None? ==> r.y == e.y)
    ensures (p.visible.Some? ==> r.visible == p.visible.value) && (p.visible.None? ==> r.visible == e.visible)
    ensures (p.size.Some? ==> r.size == p.size.value) && (p.size.None? ==> r.size == e.size)
    ensures (p.color.Some? ==> r.color == p.color.value) && (p.color.None? ==> r.color == e.color)
    ensures (p.font.Some? ==> r.font == p.font.value) && (p.font.None? ==> r.font == e.font)
    ensures (p.hasBackground.Some? ==> r.hasBackground == p.hasBackground.value) && (p.hasBackground.None? ==> r.hasBackground == e.hasBackground)
    ensures (p.bgOpacity.Some? ==> r.bgOpacity == p.bgOpacity.value) && (p.bgOpacity.None? ==> r.bgOpacity == e.bgOpacity)
  {
    e.(x := p.x.GetOr(e.x), y := p.y.GetOr(e.y), visible := p.visible.GetOr(e.visible),
       size := p.size.GetOr(e.size), color := p.color.GetOr(e.color), font := p.font.GetOr(e.font),
       hasBackground := p.hasBackground.GetOr(e.hasBackground), bgOpacity := p.bgOpacity.GetOr(e.bgOpacity))
  }

  /** Applies `p` to every layer whose id is `id` and keeps every other layer as it was:
      same length, same order, same ids. */
  function UpdateElement(layers: seq<Layer>, id: LayerId, p: Patch): (r: seq<Layer>)
    ensures |r| == |layers|
    ensures Ids(r) == Ids(layers)
    ensures forall i :: 0 <= i < |layers| && layers[i].id != id ==> r[i] == layers[i]
    ensures forall i :: 0 <= i < |layers| && layers[i].id == id ==> r[i] == Merge(layers[i], p)
  {
    if |layers| == 0 then []
    else
      var head := if layers[0].id == id then Merge(layers[0], p) else layers[0];
      var r := [head] + UpdateElement(layers[1..], id, p);
      assert forall i :: 1 <= i < |layers| ==> r[i] == UpdateElement(layers[1..], id, p)[i - 1];
      r
  }

  /** The first layer with id `id`, as `elements.find(e => e.id === id)`. */
  function Find(layers: seq<Layer>, id: LayerId): (r: Option<Layer>)
    ensures r.None? <==> forall i :: 0 <= i < |layers| ==> layers[i].id != id
    ensures r.Some? ==> r.value in layers && r.value.id == id
    ensures r.Some? && UniqueIds(layers) ==> forall i :: 0 <= i < |layers| && layers[i].id == id ==> layers[i] == r.value
  {
    if |layers| == 0 then None
    else if layers[0].id == id then Some(layers[0])
    else
      var r := Find(layers[1..], id);
      assert forall i :: 1 <= i < |layers| ==> layers[i] == layers[1..][i - 1];
      r
  }

  function Min(a: real, b: real): real { if a <= b then a else b }
  function Max(a: real, b: real): real { if a >= b then a else b }

  /** `Math.max(lo, Math.min(hi, v))`. */
  function Clamp(lo: real, hi: real, v: real): (r: real)
    requires lo <= hi
    ensures lo <= r <= hi
    ensures lo <= v <= hi ==> r == v
    ensures v <= lo ==> r == lo
    ensures v >= hi ==> r == hi
  {
    Max(lo, Min(hi, v))
  }

  /** Clamping an already clamped value changes nothing. */
  lemma ClampIdempotent(lo: real, hi: real, v: real)
    requires lo <= hi
    ensures Clamp(lo, hi, Clamp(lo, hi, v)) == Clamp(lo, hi, v)
  {
  }

  /** The smallest and largest percentage a drag can store. */
  const MinPercent: real := 5.0
  const MaxPercent: real := 95.0

  /** A touch on an element that starts at `origin` and spans `extent >= 0` has a
      defined percentage unless the element has no extent and the touch sits exactly on its
      origin (the source's division is then 0 / 0). */
  predicate TouchDefined(client: real, origin: real, extent: real) {
    extent >= 0.0 && (extent > 0.0 || client != origin)
  }

  /** A touch position mapped into the logical percentage space of an element that starts
      at `origin` and spans `extent`, then clamped to [5, 95]. On an element of no extent
      the source's division overflows to an infinity of the touch's sign, which the clamp
      turns into the bound on that side. */
  function TouchPercent(client: real, origin: real, extent: real): (r: real)
    requires TouchDefined(client, origin, extent)
    ensures MinPercent <= r <= MaxPercent
    ensures client <= origin ==> r == MinPercent
    ensures client >= origin + extent ==> r == MaxPercent
    ensures extent > 0.0 && (client - origin) / extent * 100.0 <= MinPercent ==> r == MinPercent
    ensures extent > 0.0 && (client - origin) / extent * 100.0 >= MaxPercent ==> r == MaxPercent
    ensures extent > 0.0 && MinPercent <= (client - origin) / extent * 100.0 <= MaxPercent ==>
      r == (client - origin) / extent * 100.0
  {
    if extent == 0.0 then
      if client > origin then MaxPercent else MinPercent
    else
      var raw := (client - origin) / extent * 100.0;
      PercentBounds(client, origin, extent);
      Clamp(MinPercent, MaxPercent, raw)
  }

  lemma PercentBounds(client: real, origin: real, extent: real)
    requires extent > 0.0
    ensures client <= origin ==> (client - origin) / extent * 100.0 <= 0.0
    ensures client >= origin + extent ==> (client - origin) / extent * 100.0 >= 100.0
  {
    var q := (client - origin) / extent;
    assert q * extent == client - origin;
  }

  /** The bounding rectangle of the element receiving the touch, in client coordinates. */
  datatype Rect = Rect(left: real, top: real, width: real, height: real)

  /** `handleTouchMove`: with a selected layer, moves it to the clamped percentage position
      of the touch; with none, changes nothing. */
  function MoveSelected(layers: seq<Layer>, selected: Option<LayerId>, clientX: real, clientY: real, rect: Rect): (r: seq<Layer>)
    requires selected.Some? ==> TouchDefined(clientX, rect.left, rect.width) && TouchDefined(clientY, rect.top, rect.height)
    ensures selected.None? ==> r == layers
    ensures Ids(r) == Ids(layers)
    ensures selected.Some? ==> forall i :: 0 <= i < |r| && r[i].id == selected.value ==>
      && MinPercent <= r[i].x <= MaxPercent && MinPercent <= r[i].y <= MaxPercent
      && r[i] == layers[i].(x := TouchPercent(clientX, rect.left, rect.width),
                            y := TouchPercent(clientY, rect.top, rect.height))
    ensures selected.Some? ==> forall i :: 0 <= i < |r| && r[i].id != selected.value ==> r[i] == layers[i]
  {
    match selected
    case None => layers
    case Some(id) =>
      var px := TouchPercent(clientX, rect.left, rect.width);
      var py := TouchPercent(clientY, rect.top, rect.height);
      UpdateElement(layers, id, NoChange.(x := Some(px), y := Some(py)))
  }

  /** The size "minus" button: five smaller, never below 10. */
  function SizeDown(size: int): (r: int)
    ensures r >= 10
    ensures 10 <= size <= 150 ==> 10 <= r <= 150
    ensures size >= 15 ==> r == size - 5
    ensures size <= 15 ==> r == 10
  {
    if size - 5 >= 10 then size - 5 else 10
  }

  /** The size "plus" button: five larger, never above 150. */
  function SizeUp(size: int): (r: int)
    ensures r <= 150
    ensures 10 <= size <= 150 ==> 10 <= r <= 150
    ensures size <= 145 ==> r == size + 5
    ensures size >= 145 ==> r == 150
  {
    if size + 5 <= 150 then size + 5 else 150
  }

  /** Away from the bounds, the two size buttons undo each other. */
  lemma SizeStepsCancel(size: int)
    ensures 15 <= size <= 150 ==> SizeUp(SizeDown(size)) == size
    ensures 10 <= size <= 145 ==> SizeDown(SizeUp(size)) == size
  {
  }

  /** The eye button: with unique ids, flips `visible` of the layer with id `id` and changes
      nothing else. Every layer carrying `id` is set to the negation of the first one's flag. */
  function ToggleVisible(layers: seq<Layer>, id: LayerId): (r: seq<Layer>)
    ensures Ids(r) == Ids(layers)
    ensures forall i :: 0 <= i < |layers| && layers[i].id != id ==> r[i] == layers[i]
    ensures UniqueIds(layers) ==> forall i :: 0 <= i < |layers| && layers[i].id == id ==>
      r[i] == layers[i].(visible := !layers[i].visible)
  {
    match Find(layers, id)
    case None => layers
    case Some(el) => UpdateElement(layers, id, NoChange.(visible := Some(!el.visible)))
  }

  /** Two visibility toggles of the same layer restore the layers exactly. */
  lemma ToggleVisibleTwice(layers: seq<Layer>, id: LayerId)
    requires UniqueIds(layers)
    ensures ToggleVisible(ToggleVisible(layers, id), id) == layers
  {
    var once := ToggleVisible(layers, id);
    SameIdsKeepUnique(layers, once);
    var twice := ToggleVisible(once, id);
    forall i | 0 <= i < |layers| ensures twice[i] == layers[i] {
      assert Ids(once)[i] == once[i].id;
    }
  }

  /** Uniqueness of ids depends on the id sequence alone. */
  lemma SameIdsKeepUnique(a: seq<Layer>, b: seq<Layer>)
    requires UniqueIds(a) && Ids(b) == Ids(a)
    ensures UniqueIds(b)
  {
    forall i, j | 0 <= i < j < |b| ensures b[i].id != b[j].id {
      assert Ids(b)[i] == b[i].id && Ids(b)[j] == b[j].id;
    }
  }
}

=== FILE: options.dfy ===
/** The optional value used for "maybe absent" state (a selected layer id, an uploaded file,
    a generated result, a canvas filter that is not set). */
module Options {

  datatype Option<+T> = None | Some(value: T) {

    /** The carried value, or `default` when there is none. */
    function GetOr(default: T): T {
      match this
      case Some(v) => v
      case None => default
    }
  }
}

=== FILE: post.dfy ===
/** Business hours and the assembled post text. */
module Post {

  import opened Options
  import opened Text
  import Hashtags

  /** Opening and closing time as typed, each with its AM/PM period. */
  datatype BusinessHours = BusinessHours(open: string, openPeriod: string, close: string, closePeriod: string)

  /** The hours the page opens with. */
  const InitialHours: BusinessHours := BusinessHours("12", "PM", "6:30", "PM")

  /** Which of the two period buttons was pressed. */
  datatype Target = OpenTime | CloseTime

  predicate IsPeriod(p: string) {
    p == "AM" || p == "PM"
  }

  /** `AM` becomes `PM`; anything else becomes `AM`. */
  function FlipPeriod(p: string): (r: string)
    ensures IsPeriod(r)
    ensures r == "PM" <==> p == "AM"
  {
    if p == "AM" then "PM" else "AM"
  }

  /** `togglePeriod`: flips the targeted period field and keeps the other three fields. */
  function TogglePeriod(h: BusinessHours, t: Target): (r: BusinessHours)
    ensures r.open == h.open && r.close == h.close
    ensures t == OpenTime ==> r.openPeriod == FlipPeriod(h.openPeriod) && r.closePeriod == h.closePeriod
    ensures t == CloseTime ==> r.closePeriod == FlipPeriod(h.closePeriod) && r.openPeriod == h.openPeriod
  {
    match t
    case OpenTime => h.(openPeriod := FlipPeriod(h.openPeriod))
    case CloseTime => h.(closePeriod := FlipPeriod(h.closePeriod))
  }

  /** On AM/PM values the toggle is an involution. */
  lemma TogglePeriodTwice(h: BusinessHours, t: Target)
    requires IsPeriod(h.openPeriod) && IsPeriod(h.closePeriod)
    ensures TogglePeriod(TogglePeriod(h, t), t) == h
  {
  }

  const HoursPrefix: string := "We're open from "
  const HoursSuffix: string := " today."

  /** `formatHoursString`: `We're open from <open> <openPeriod> to <close> <closePeriod> today.` */
  function FormatHoursString(h: BusinessHours): (r: string)
    ensures StartsWith(r, HoursPrefix) && EndsWith(r, HoursSuffix)
    ensures |r| == |HoursPrefix| + |h.open| + 1 + |h.openPeriod| + 4 + |h.close| + 1 + |h.closePeriod| + |HoursSuffix|
    ensures r[|HoursPrefix| + |h.open|] == ' '
    ensures r[|HoursPrefix| + |h.open| + 1..][..|h.openPeriod|] == h.openPeriod
    ensures r[..|r| - |HoursSuffix|][|r| - |HoursSuffix| - |h.closePeriod|..] == h.closePeriod
  {
    var head := HoursPrefix + h.open + " ";
    var mid := h.openPeriod + " to " + h.close + " " + h.closePeriod;
    var r := head + mid + HoursSuffix;
    assert r[..|HoursPrefix|] == HoursPrefix;
    assert r[|r| - |HoursSuffix|..] == HoursSuffix;
    assert r[|head|..][..|h.openPeriod|] == h.openPeriod;
    assert r[..|r| - |HoursSuffix|] == head + mid;
    r
  }

  /** The sentence carries each of the four fields at its own place: the opening time right
      after the prefix, then a space and the opening period, then ` to `, the closing time and
      a space, and the closing period just before the suffix. */
  lemma FormatHoursFields(h: BusinessHours)
    ensures var r := FormatHoursString(h);
      && r[|HoursPrefix|..][..|h.open|] == h.open
      && r[|HoursPrefix| + |h.open| + 1..][..|h.openPeriod|] == h.openPeriod
      && r[|HoursPrefix| + |h.open| + 1 + |h.openPeriod|..][..4 + |h.close| + 1] == " to " + h.close + " "
      && r[..|r| - |HoursSuffix|][|r| - |HoursSuffix| - |h.closePeriod|..] == h.closePeriod
  {
    OpenField(h);
    LinkField(h);
  }

  lemma OpenField(h: BusinessHours)
    ensures FormatHoursString(h)[|HoursPrefix|..][..|h.open|] == h.open
  {
    var r := FormatHoursString(h);
    forall i | 0 <= i < |h.open| ensures r[|HoursPrefix| + i] == h.open[i] {
    }
  }

  lemma LinkField(h: BusinessHours)
    ensures var k := |HoursPrefix| + |h.open| + 1 + |h.openPeriod|;
      FormatHoursString(h)[k..][..4 + |h.close| + 1] == " to " + h.close + " "
  {
    var r := FormatHoursString(h);
    var link := " to " + h.close + " ";
    var k := |HoursPrefix| + |h.open| + 1 + |h.openPeriod|;
    forall i | 0 <= i < |link| ensures r[k + i] == link[i] {
    }
  }

  /** The sentence the page shows before any edit. */
  lemma InitialHoursSentence()
    ensures FormatHoursString(InitialHours) == "We're open from 12 PM to 6:30 PM today."
  {
  }

  /** Flipping a period always changes the hours sentence, so the sentence reflects each toggle. */
  lemma FormatReflectsToggle(h: BusinessHours, t: Target)
    requires IsPeriod(h.openPeriod) && IsPeriod(h.closePeriod)
    ensures FormatHoursString(TogglePeriod(h, t)) != FormatHoursString(h)
  {
    var a := FormatHoursString(h);
    var b := FormatHoursString(TogglePeriod(h, t));
    var k := |HoursPrefix| + |h.open| + 1;
    if t == OpenTime {
      assert a[k..][..2] == h.openPeriod;
      assert b[k..][..2] == FlipPeriod(h.openPeriod);
      assert a[k] != b[k];
    } else {
      assert |a| == |b|;
      var e := |a| - |HoursSuffix|;
      assert a[..e][e - 2..] == h.closePeriod;
      assert b[..e][e - 2..] == FlipPeriod(h.closePeriod);
      assert a[e - 2] != b[e - 2];
    }
  }

  /** The four strings the text generator returns. */
  datatype GeneratedContent = GeneratedContent(caption: string, captionJp: string, imagePhrase: string, imagePhraseJp: string)

  /** The post without its final hashtag paragraph: phrase in lenticular brackets, caption,
      phone line and hours line. */
  function OverviewCore(g: GeneratedContent, phone: string, h: BusinessHours): (r: string)
    ensures |r| > 0 && r[0] == '\U{3010}' && r[|r| - 1] == '.'
  {
    var r := "\U{3010}" + g.imagePhrase + "\U{3011}\n" + g.caption + "\n\n\U{1F4DE} " + phone
      + "\n\U{23F0} " + FormatHoursString(h);
    assert EndsWith(FormatHoursString(h), HoursSuffix);
    r
  }

  /** The template literal before `.trim()`. */
  function OverviewTemplate(g: GeneratedContent, phone: string, h: BusinessHours, tags: string): string {
    "\n" + (OverviewCore(g, phone, h) + "\n\n" + tags) + "\n  "
  }

  /** `fullOverview`: empty without a generated result; otherwise the trimmed template. */
  function FullOverview(result: Option<GeneratedContent>, phone: string, h: BusinessHours, hs: seq<Hashtags.Hashtag>): (r: string)
    ensures result.None? ==> r == []
    ensures result.Some? ==> |r| > 0 && r[0] == '\U{3010}'
  {
    match result
    case None => []
    case Some(g) =>
      var tags := Hashtags.SelectedTagsString(hs);
      var core := OverviewCore(g, phone, h);
      assert !IsSpace(core[0]);
      var t := OverviewTemplate(g, phone, h, tags);
      TrimStartBlankPrefix("\n", t[1..]);
      assert t == "\n" + t[1..];
      assert t[1..][0] == core[0];
      Trim(t)
  }

  /** With no tag selected, the overview ends with the hours sentence: the empty tag paragraph
      and its blank lines are trimmed away. */
  lemma FullOverviewWithoutTags(g: GeneratedContent, phone: string, h: BusinessHours, hs: seq<Hashtags.Hashtag>)
    requires forall i :: 0 <= i < |hs| ==> !hs[i].selected
    ensures FullOverview(Some(g), phone, h, hs) == OverviewCore(g, phone, h)
  {
    var core := OverviewCore(g, phone, h);
    assert Hashtags.SelectedTagsString(hs) == [];
    var t := OverviewTemplate(g, phone, h, []);
    assert t == "\n" + core + "\n\n\n  ";
    TrimAround("\n", core, "\n\n\n  ");
  }

  /** With selected tags whose string ends in a visible character, the overview is the core,
      a blank line, and the selected-tags string. */
  lemma FullOverviewWithTags(g: GeneratedContent, phone: string, h: BusinessHours, hs: seq<Hashtags.Hashtag>)
    requires var tags := Hashtags.SelectedTagsString(hs); |tags| > 0 && !IsSpace(tags[|tags| - 1])
    ensures FullOverview(Some(g), phone, h, hs) == OverviewCore(g, phone, h) + "\n\n" + Hashtags.SelectedTagsString(hs)
  {
    var tags := Hashtags.SelectedTagsString(hs);
    var body := OverviewCore(g, phone, h) + "\n\n" + tags;
    assert body[0] == OverviewCore(g, phone, h)[0];
    assert body[|body| - 1] == tags[|tags| - 1];
    TrimAround("\n", body, "\n  ");
  }

  /** With at least one tag selected, all tags trimmed as `addTag` stores them, the overview
      is the core, a blank line, and the selected-tags string. */
  lemma FullOverviewOfTrimmedTags(g: GeneratedContent, phone: string, h: BusinessHours, hs: seq<Hashtags.Hashtag>)
    requires Hashtags.TagsTrimmed(hs)
    requires exists i :: 0 <= i < |hs| && hs[i].selected
    ensures FullOverview(Some(g), phone, h, hs) == OverviewCore(g, phone, h) + "\n\n" + Hashtags.SelectedTagsString(hs)
  {
    Hashtags.SelectedTagsEndVisible(hs);
    FullOverviewWithTags(g, phone, h, hs);
  }
}

=== FILE: render.dfy ===
/** One frame of the compositor, as a list of draw commands instead of canvas calls,
    and the hit regions laid over the canvas for selecting layers. */
module Render {

  import opened Options
  import opened Text
  import opened Layers
  import Filters
  import Cover

  /** The fixed logical canvas, independent of its on-screen size. */
  const CanvasWidth: real := 1080.0
  const CanvasHeight: real := 1920.0

  /** The neutral fill used when no background has been uploaded. */
  const FallbackFill: string := "#1e293b"

  /** Corner radius of the backing box. */
  const BoxRadius: real := 15.0

  /** The drop shadow that keeps unboxed text legible. */
  datatype Shadow = Shadow(color: string, blur: real, dx: real, dy: real)

  const TextShadow: Shadow := Shadow("rgba(0,0,0,0.6)", 10.0, 2.0, 2.0)

  datatype Command =
    | Clear
    | FillCanvas(color: string)
    | DrawMedia(filter: Option<string>, at: Cover.Placement)
    | FillBox(boxColor: string, alpha: real, left: real, top: real, width: real, height: real, radius: real)
    | FillText(text: string, font: string, textColor: string, cx: real, cy: real, shadow: Option<Shadow>)

  /** The font family each font style draws with. */
  function FontFamily(f: Font): string {
    match f
    case Strong => "Bebas Neue"
    case Modern => "Outfit"
    case Serif => "Playfair Display"
    case Casual => "Damion"
    case Sans => "sans-serif"
  }

  /** The font style a family name belongs to, if any. */
  function FontOfFamily(name: string): Option<Font> {
    if name == "Bebas Neue" then Some(Strong)
    else if name == "Outfit" then Some(Modern)
    else if name == "Playfair Display" then Some(Serif)
    else if name == "Damion" then Some(Casual)
    else if name == "sans-serif" then Some(Sans)
    else None
  }

  /** The family table is a bijection onto its five names: each family maps back to its
      style, so no two styles share a family. */
  lemma FontFamilyRoundTrip(f: Font)
    ensures FontOfFamily(FontFamily(f)) == Some(f)
  {
  }

  /** The canvas font, `bold <2*size>px "<family>", sans-serif`. */
  function FontSpec(l: Layer): (r: string)
    ensures StartsWith(r, "bold " + IntToString(l.size * 2) + "px \"" + FontFamily(l.font))
    ensures EndsWith(r, "\", sans-serif")
    ensures |r| == |"bold " + IntToString(l.size * 2) + "px \"" + FontFamily(l.font)| + |"\", sans-serif"|
  {
    var head := "bold " + IntToString(l.size * 2) + "px \"" + FontFamily(l.font);
    var r := head + "\", sans-serif";
    assert r[..|head|] == head;
    r
  }

  /** The anchor of a layer in canvas pixels. */
  function AnchorX(l: Layer): real { l.x / 100.0 * CanvasWidth }
  function AnchorY(l: Layer): real { l.y / 100.0 * CanvasHeight }

  /** The text command a visible layer contributes. */
  function TextOf(l: Layer): Command {
    FillText(l.text, FontSpec(l), l.color, AnchorX(l), AnchorY(l),
             if l.hasBackground then None else Some(TextShadow))
  }

  /** The commands for one visible layer: an optional backing box sized to the measured text
      plus padding, then the text itself centred at the anchor. `textWidth` is the width
      the canvas measures for the layer's text in its font. */
  function LayerCommands(l: Layer, textWidth: real): (r: seq<Command>)
    ensures |r| == if l.hasBackground then 2 else 1
    ensures r[|r| - 1] == TextOf(l)
  {
    var size := l.size as real;
    var padding := size * 0.6;
    var boxWidth := textWidth + padding * 2.0;
    var boxHeight := size * 2.0 * 1.2;
    var text := TextOf(l);
    if l.hasBackground then
      [FillBox(l.bgColor, l.bgOpacity, AnchorX(l) - boxWidth / 2.0, AnchorY(l) - boxHeight / 2.0,
               boxWidth, boxHeight, BoxRadius), text]
    else
      [text]
  }

  /** A boxed layer's box has the measured width plus 0.6 * size of padding on each side and
      1.2 times the font height, is centred on the layer's anchor and uses the layer's box colour
      and opacity; the text after it is unshadowed, while an unboxed text carries the shadow. */
  lemma LayerCommandsGeometry(l: Layer, textWidth: real)
    ensures var r := LayerCommands(l, textWidth);
      && (r[|r| - 1].shadow == Some(TextShadow) <==> !l.hasBackground)
      && (l.hasBackground ==> (
        && r[0].FillBox?
        && r[0].boxColor == l.bgColor && r[0].alpha == l.bgOpacity
        && r[0].width == textWidth + 2.0 * 0.6 * (l.size as real)
        && r[0].height == 2.0 * (l.size as real) * 1.2
        && r[0].left + r[0].width / 2.0 == AnchorX(l)
        && r[0].top + r[0].height / 2.0 == AnchorY(l)))
  {
  }

  /** The visible layers, in array order. */
  function Visible(layers: seq<Layer>): (r: seq<Layer>)
    ensures |r| <= |layers|
  {
    if |layers| == 0 then []
    else if layers[0].visible then [layers[0]] + Visible(layers[1..])
    else Visible(layers[1..])
  }

  /** The visible layers are exactly the layers with `visible` set. */
  lemma {:induction false} VisibleMembers(layers: seq<Layer>)
    ensures forall l :: l in Visible(layers) <==> l in layers && l.visible
  {
    if |layers| > 0 {
      VisibleMembers(layers[1..]);
      assert layers == [layers[0]] + layers[1..];
    }
  }

  /** The layer part of a frame: each visible layer's commands, in array order. */
  function LayersPlan(layers: seq<Layer>, measure: (string, string) -> real): seq<Command> {
    if |layers| == 0 then []
    else
      var rest := LayersPlan(layers[1..], measure);
      if layers[0].visible then LayerCommands(layers[0], measure(FontSpec(layers[0]), layers[0].text)) + rest
      else rest
  }

  /** The background of the current frame: none uploaded, or an uploaded image or video
      whose intrinsic size is known once it can be drawn. */
  datatype Backdrop = NoBackdrop | Media(ready: Option<(real, real)>)

  predicate ValidBackdrop(b: Backdrop) {
    b.Media? && b.ready.Some? ==> b.ready.value.0 > 0.0 && b.ready.value.1 > 0.0
  }

  /** The background part of a frame: the dark fill when nothing is uploaded; the media
      cover-scaled under the canvas filter once it can be drawn; nothing while it cannot. */
  function BackdropPlan(b: Backdrop, f: Filters.Filter): (r: seq<Command>)
    requires ValidBackdrop(b)
    ensures |r| <= 1
  {
    match b
    case NoBackdrop => [FillCanvas(FallbackFill)]
    case Media(None) => []
    case Media(Some(dims)) =>
      [DrawMedia(Filters.CanvasFilter(f), Cover.CoverPlacement(CanvasWidth, CanvasHeight, dims.0, dims.1))]
  }

  /** One full frame: clear, background, then the visible layers. `measure` stands for the
      canvas text measurement (font, text) -> width. */
  function DrawPlan(b: Backdrop, f: Filters.Filter, layers: seq<Layer>, measure: (string, string) -> real): (r: seq<Command>)
    requires ValidBackdrop(b)
    ensures |r| >= 1 && r[0] == Clear
  {
    [Clear] + BackdropPlan(b, f) + LayersPlan(layers, measure)
  }

  /** The text commands of a plan, in order. */
  function Texts(cmds: seq<Command>): (r: seq<Command>)
    ensures forall c :: c in r ==> c.FillText?
  {
    if |cmds| == 0 then []
    else if cmds[0].FillText? then [cmds[0]] + Texts(cmds[1..])
    else Texts(cmds[1..])
  }

  lemma {:induction false} TextsAppend(a: seq<Command>, b: seq<Command>)
    ensures Texts(a + b) == Texts(a) + Texts(b)
  {
    if |a| > 0 {
      assert (a + b)[1..] == a[1..] + b;
      TextsAppend(a[1..], b);
    } else {
      assert a + b == b;
    }
  }

  /** The text commands of a sequence of layers, one per layer, in order. */
  function TextsOfLayers(ls: seq<Layer>): (r: seq<Command>) {
    if |ls| == 0 then [] else [TextOf(ls[0])] + TextsOfLayers(ls[1..])
  }

  lemma {:induction false} TextsOfLayersIndex(ls: seq<Layer>)
    ensures |TextsOfLayers(ls)| == |ls|
    ensures forall i :: 0 <= i < |ls| ==> TextsOfLayers(ls)[i] == TextOf(ls[i])
  {
    if |ls| > 0 {
      TextsOfLayersIndex(ls[1..]);
    }
  }

  /** The layer part of a frame draws exactly one text per visible layer, in array order;
      invisible layers draw nothing. */
  lemma {:induction false} LayersPlanTexts(layers: seq<Layer>, measure: (string, string) -> real)
    ensures Texts(LayersPlan(layers, measure)) == TextsOfLayers(Visible(layers))
  {
    if |layers| > 0 {
      var l := layers[0];
      var rest := LayersPlan(layers[1..], measure);
      LayersPlanTexts(layers[1..], measure);
      if l.visible {
        var own := LayerCommands(l, measure(FontSpec(l), l.text));
        TextsAppend(own, rest);
        LayerCommandsText(l, measure(FontSpec(l), l.text));
        var vis := Visible(layers);
        assert vis == [l] + Visible(layers[1..]);
        assert vis[1..] == Visible(layers[1..]);
      }
    }
  }

  /** The commands of a sequence of layers drawn one after another, whatever their
      visibility. */
  function CommandsOf(ls: seq<Layer>, measure: (string, string) -> real): seq<Command> {
    if |ls| == 0 then []
    else LayerCommands(ls[0], measure(FontSpec(ls[0]), ls[0].text)) + CommandsOf(ls[1..], measure)
  }

  /** The layer part of a frame is the visible layers' commands, each layer's box and text in
      array order; an invisible layer contributes no command of any kind. */
  lemma {:induction false} LayersPlanIsVisibleCommands(layers: seq<Layer>, measure: (string, string) -> real)
    ensures LayersPlan(layers, measure) == CommandsOf(Visible(layers), measure)
    ensures LayersPlan(layers, measure) == LayersPlan(Visible(layers), measure)
  {
    if |layers| > 0 {
      LayersPlanIsVisibleCommands(layers[1..], measure);
      var vis := Visible(layers);
      if layers[0].visible {
        assert vis[0] == layers[0] && vis[1..] == Visible(layers[1..]);
      }
    }
    var vis := Visible(layers);
    VisibleMembers(layers);
    assert forall i :: 0 <= i < |vis| ==> vis[i] in vis;
    AllVisiblePlan(vis, measure);
  }

  /** On layers that are all visible, the layer pass draws every layer's commands. */
  lemma {:induction false} AllVisiblePlan(ls: seq<Layer>, measure: (string, string) -> real)
    requires forall i :: 0 <= i < |ls| ==> ls[i].visible
    ensures LayersPlan(ls, measure) == CommandsOf(ls, measure)
  {
    if |ls| > 0 {
      AllVisiblePlan(ls[1..], measure);
    }
  }

  /** Every command of the layer pass belongs to the commands of one visible layer; with the
      box geometry of `LayerCommandsGeometry`, each box in a frame is the box of a visible boxed
      layer, sized to its measured text and centred on its anchor. */
  lemma {:induction false} LayersPlanCommandsFromVisible(layers: seq<Layer>, measure: (string, string) -> real)
    ensures forall c :: c in LayersPlan(layers, measure) ==>
      exists l :: l in layers && l.visible && c in LayerCommands(l, measure(FontSpec(l), l.text))
  {
    if |layers| > 0 {
      LayersPlanCommandsFromVisible(layers[1..], measure);
      assert layers == [layers[0]] + layers[1..];
      forall c | c in LayersPlan(layers, measure)
        ensures exists l :: l in layers && l.visible && c in LayerCommands(l, measure(FontSpec(l), l.text))
      {
        var rest := LayersPlan(layers[1..], measure);
        if c in rest {
          var l :| l in layers[1..] && l.visible && c in LayerCommands(l, measure(FontSpec(l), l.text));
          assert l in layers;
        } else {
          assert layers[0] in layers;
        }
      }
    }
  }

  /** `c` is the backing box of boxed layer `l` whose text measures `textWidth`: the layer's
      box colour and opacity, the measured width plus 0.6 * size of padding on each side,
      1.2 times the font height, centred on the layer's anchor. */
  predicate IsBoxOf(c: Command, l: Layer, textWidth: real) {
    && c.FillBox? && l.hasBackground
    && c.boxColor == l.bgColor && c.alpha == l.bgOpacity
    && c.width == textWidth + 2.0 * 0.6 * (l.size as real)
    && c.height == 2.0 * (l.size as real) * 1.2
    && c.left + c.width / 2.0 == AnchorX(l) && c.top + c.height / 2.0 == AnchorY(l)
  }

  /** Each box of the layer pass is the box of a visible layer with its box on, sized to
      that layer's measured text and centred on its anchor. */
  lemma LayersPlanBoxes(layers: seq<Layer>, measure: (string, string) -> real)
    ensures forall c :: c in LayersPlan(layers, measure) && c.FillBox? ==>
      exists l :: l in layers && l.visible && IsBoxOf(c, l, measure(FontSpec(l), l.text))
  {
    LayersPlanCommandsFromVisible(layers, measure);
    forall c | c in LayersPlan(layers, measure) && c.FillBox?
      ensures exists l :: l in layers && l.visible && IsBoxOf(c, l, measure(FontSpec(l), l.text))
    {
      var l :| l in layers && l.visible && c in LayerCommands(l, measure(FontSpec(l), l.text));
      var w := measure(FontSpec(l), l.text);
      LayerCommandsGeometry(l, w);
      var own := LayerCommands(l, w);
      assert own[|own| - 1].FillText?;
      assert l.hasBackground && c == own[0];
      assert IsBoxOf(c, l, w);
    }
  }

  /** One visible layer contributes exactly its own text command. */
  lemma LayerCommandsText(l: Layer, textWidth: real)
    ensures Texts(LayerCommands(l, textWidth)) == [TextOf(l)]
  {
    var own := LayerCommands(l, textWidth);
    if l.hasBackground {
      assert own[1..] == [TextOf(l)];
      assert Texts(own[1..]) == [TextOf(l)] + Texts(own[1..][1..]);
    } else {
      assert own == [TextOf(l)];
      assert Texts(own) == [TextOf(l)] + Texts(own[1..]);
    }
  }

  /** A whole frame draws one text per visible layer, in array order, each carrying the
      drop shadow exactly when the layer has no backing box. */
  lemma DrawPlanTexts(b: Backdrop, f: Filters.Filter, layers: seq<Layer>, measure: (string, string) -> real)
    requires ValidBackdrop(b)
    ensures |Texts(DrawPlan(b, f, layers, measure))| == |Visible(layers)|
    ensures forall i :: 0 <= i < |Visible(layers)| ==>
      Texts(DrawPlan(b, f, layers, measure))[i] == TextOf(Visible(layers)[i])
    ensures forall i :: 0 <= i < |Visible(layers)| ==>
      (Texts(DrawPlan(b, f, layers, measure))[i].shadow == Some(TextShadow) <==> !Visible(layers)[i].hasBackground)
  {
    var bg := [Clear] + BackdropPlan(b, f);
    NoTexts(bg);
    TextsAppend(bg, LayersPlan(layers, measure));
    assert Texts(DrawPlan(b, f, layers, measure)) == Texts(LayersPlan(layers, measure));
    LayersPlanTexts(layers, measure);
    TextsOfLayersIndex(Visible(layers));
  }

  /** The dark fallback fill is drawn exactly when there is no background; an uploaded
      background that can be drawn is drawn first, under the canvas filter, cover-scaled. */
  lemma DrawPlanBackdrop(b: Backdrop, f: Filters.Filter, layers: seq<Layer>, measure: (string, string) -> real)
    requires ValidBackdrop(b)
    ensures FillCanvas(FallbackFill) in DrawPlan(b, f, layers, measure) <==> b.NoBackdrop?
    ensures b.NoBackdrop? ==> DrawPlan(b, f, layers, measure)[1] == FillCanvas(FallbackFill)
    ensures b.Media? && b.ready.Some? ==> (DrawPlan(b, f, layers, measure)[1] ==
      DrawMedia(Filters.CanvasFilter(f), Cover.CoverPlacement(CanvasWidth, CanvasHeight, b.ready.value.0, b.ready.value.1)))
    ensures b.Media? && b.ready.None? ==> DrawPlan(b, f, layers, measure) == [Clear] + LayersPlan(layers, measure)
  {
    LayerNeverFillsCanvas(layers, measure);
    var r := DrawPlan(b, f, layers, measure);
    assert r == ([Clear] + BackdropPlan(b, f)) + LayersPlan(layers, measure);
  }

  /** A command list without text commands has no texts. */
  lemma {:induction false} NoTexts(cmds: seq<Command>)
    requires forall i :: 0 <= i < |cmds| ==> !cmds[i].FillText?
    ensures Texts(cmds) == []
  {
    if |cmds| > 0 {
      NoTexts(cmds[1..]);
    }
  }

  /** Layer commands are boxes and texts only. */
  lemma {:induction false} LayerNeverFillsCanvas(layers: seq<Layer>, measure: (string, string) -> real)
    ensures forall c :: c in LayersPlan(layers, measure) ==> c.FillBox? || c.FillText?
  {
    if |layers| > 0 {
      LayerNeverFillsCanvas(layers[1..], measure);
    }
  }

  /** An invisible region over the canvas that selects its layer on mouse-down or touch-start;
      positions and extents are percentages of the canvas (80% wide, 10% tall, centred on the anchor). */
  datatype HitRegion = HitRegion(id: LayerId, cx: real, cy: real, width: real, height: real)

  /** The hit region of one layer. */
  function HitOf(l: Layer): HitRegion {
    HitRegion(l.id, l.x, l.y, 80.0, 10.0)
  }

  /** One hit region per visible layer, in array order. */
  function HitRegions(layers: seq<Layer>): seq<HitRegion> {
    if |layers| == 0 then []
    else
      var rest := HitRegions(layers[1..]);
      if layers[0].visible then [HitOf(layers[0])] + rest
      else rest
  }

  /** Hit regions follow the visible layers one to one, in order, and each region sits on
      the anchor its layer's text is drawn at. */
  lemma {:induction false} HitRegionsFollowVisible(layers: seq<Layer>)
    ensures |HitRegions(layers)| == |Visible(layers)|
    ensures forall i :: 0 <= i < |Visible(layers)| ==>
      var h := HitRegions(layers)[i];
      var l := Visible(layers)[i];
      h.id == l.id && h.cx / 100.0 * CanvasWidth == AnchorX(l) && h.cy / 100.0 * CanvasHeight == AnchorY(l)
  {
    HitRegionsAreVisible(layers);
    HitsOfIndex(Visible(layers));
  }

  function HitsOf(ls: seq<Layer>): seq<HitRegion> {
    if |ls| == 0 then [] else [HitOf(ls[0])] + HitsOf(ls[1..])
  }

  lemma {:induction false} HitsOfIndex(ls: seq<Layer>)
    ensures |HitsOf(ls)| == |ls|
    ensures forall i :: 0 <= i < |ls| ==> HitsOf(ls)[i] == HitOf(ls[i])
  {
    if |ls| > 0 {
      HitsOfIndex(ls[1..]);
    }
  }

  lemma {:induction false} HitRegionsAreVisible(layers: seq<Layer>)
    ensures HitRegions(layers) == HitsOf(Visible(layers))
  {
    if |layers| > 0 {
      HitRegionsAreVisible(layers[1..]);
      if layers[0].visible {
        var vis := Visible(layers);
        assert vis[1..] == Visible(layers[1..]);
      }
    }
  }

  /** Some hit region on the canvas carries id `id`, so a press can select that layer. */
  predicate Hittable(layers: seq<Layer>, id: LayerId) {
    exists k :: 0 <= k < |HitRegions(layers)| && HitRegions(layers)[k].id == id
  }

  /** A layer id can be picked on the canvas exactly when a layer with that id is visible. */
  lemma HittableIffVisible(layers: seq<Layer>, id: LayerId)
    ensures Hittable(layers, id) <==> exists i :: 0 <= i < |layers| && layers[i].id == id && layers[i].visible
  {
    HitRegionsFollowVisible(layers);
    VisibleMembers(layers);
    var vis := Visible(layers);
    if Hittable(layers, id) {
      var k :| 0 <= k < |HitRegions(layers)| && HitRegions(layers)[k].id == id;
      assert vis[k] in vis;
      var i :| 0 <= i < |layers| && layers[i] == vis[k];
    }
    if exists i :: 0 <= i < |layers| && layers[i].id == id && layers[i].visible {
      var i :| 0 <= i < |layers| && layers[i].id == id && layers[i].visible;
      assert layers[i] in vis;
      var k :| 0 <= k < |vis| && vis[k] == layers[i];
      assert HitRegions(layers)[k].id == id;
    }
  }
}

=== FILE: text.dfy ===
/** String helpers the post-text and composer code relies on: JavaScript's `trim`,
    an ASCII `toLowerCase`, `replace` of a single character (first occurrence only),
    `Array.prototype.join`, and the decimal rendering of integers used in template strings. */
module Text {

  import Options

  /** JavaScript's WhiteSpace and LineTerminator characters, the set `String.prototype.trim` strips. */
  predicate IsSpace(c: char) {
    || c == '\t' || c == '\n' || c == '\U{0B}' || c == '\U{0C}' || c == '\r' || c == ' '
    || c == '\U{A0}' || c == '\U{1680}' || ('\U{2000}' <= c <= '\U{200A}')
    || c == '\U{2028}' || c == '\U{2029}' || c == '\U{202F}' || c == '\U{205F}'
    || c == '\U{3000}' || c == '\U{FEFF}'
  }

  /** Every character of `s` is whitespace (the empty string included). */
  predicate Blank(s: string) {
    forall i :: 0 <= i < |s| ==> IsSpace(s[i])
  }

  /** `s` with its leading whitespace removed: a suffix of `s` whose dropped prefix is blank. */
  function TrimStart(s: string): (r: string)
    ensures |r| <= |s| && r == s[|s| - |r|..]
    ensures Blank(s[..|s| - |r|])
    ensures r == [] || !IsSpace(r[0])
  {
    if |s| > 0 && IsSpace(s[0]) then
      var r := TrimStart(s[1..]);
      assert s[..|s| - |r|] == [s[0]] + s[1..][..|s| - 1 - |r|];
      r
    else
      s
  }

  /** `s` with its trailing whitespace removed: a prefix of `s` whose dropped suffix is blank. */
  function TrimEnd(s: string): (r: string)
    ensures |r| <= |s| && r == s[..|r|]
    ensures Blank(s[|r|..])
    ensures r == [] || !IsSpace(r[|r| - 1])
  {
    if |s| > 0 && IsSpace(s[|s| - 1]) then
      var r := TrimEnd(s[..|s| - 1]);
      assert s[|r|..] == s[..|s| - 1][|r|..] + [s[|s| - 1]];
      r
    else
      s
  }

  /** `String.prototype.trim`. */
  function Trim(s: string): (r: string)
    ensures |r| <= |s|
    ensures r == [] || (!IsSpace(r[0]) && !IsSpace(r[|r| - 1]))
  {
    TrimEnd(TrimStart(s))
  }

  /** A string trims to the empty string exactly when it is blank; this is the
      truthiness test `!s.trim()`. */
  lemma TrimEmptyIffBlank(s: string)
    ensures Trim(s) == [] <==> Blank(s)
  {
    var t := TrimStart(s);
    if Trim(s) == [] {
      assert s[..|s| - |t|] == s;
    } else {
      var r := Trim(s);
      assert !IsSpace(r[0]);
      assert r == t[..|r|];
      assert t == s[|s| - |t|..];
      assert !IsSpace(s[|s| - |t|]);
    }
  }

  /** Trimming a string whose core starts and ends with non-whitespace, wrapped in blank text
      on both sides, yields exactly the core. */
  lemma {:induction false} TrimAround(front: string, core: string, back: string)
    requires Blank(front) && Blank(back)
    requires |core| > 0 && !IsSpace(core[0]) && !IsSpace(core[|core| - 1])
    ensures Trim(front + core + back) == core
  {
    TrimStartBlankPrefix(front, core + back);
    assert front + core + back == front + (core + back);
    TrimEndBlankSuffix(core, back);
  }

  lemma {:induction false} TrimStartBlankPrefix(front: string, rest: string)
    requires Blank(front)
    requires |rest| > 0 && !IsSpace(rest[0])
    ensures TrimStart(front + rest) == rest
  {
    if |front| > 0 {
      assert (front + rest)[1..] == front[1..] + rest;
      TrimStartBlankPrefix(front[1..], rest);
    }
  }

  lemma {:induction false} TrimEndBlankSuffix(rest: string, back: string)
    requires Blank(back)
    requires |rest| > 0 && !IsSpace(rest[|rest| - 1])
    ensures TrimEnd(rest + back) == rest
  {
    if |back| > 0 {
      assert (rest + back)[..|rest + back| - 1] == rest + back[..|back| - 1];
      TrimEndBlankSuffix(rest, back[..|back| - 1]);
    } else {
      assert rest + back == rest;
    }
  }

  /** `toLowerCase` on one character, restricted to ASCII letters. */
  function LowerChar(c: char): char {
    if 'A' <= c <= 'Z' then (c as int + 32) as char else c
  }

  /** `toLowerCase`, restricted to ASCII letters: same length, each character lowered. */
  function ToLower(s: string): (r: string)
    ensures |r| == |s|
    ensures forall i :: 0 <= i < |s| ==> r[i] == LowerChar(s[i])
  {
    seq(|s|, i requires 0 <= i < |s| => LowerChar(s[i]))
  }

  /** Case-insensitive equality as the source tests it: both sides lowered, then compared. */
  predicate SameIgnoringCase(a: string, b: string) {
    ToLower(a) == ToLower(b)
  }

  /** Index of the first occurrence of `c` in `s`, if any. */
  function FirstIndex(s: string, c: char): (r: Options.Option<nat>)
    ensures r.None? <==> c !in s
    ensures r.Some? ==> r.value < |s| && s[r.value] == c && c !in s[..r.value]
  {
    if |s| == 0 then Options.None
    else if s[0] == c then Options.Some(0)
    else
      var k := FirstIndex(s[1..], c);
      if k.None? then Options.None
      else
        assert s[..k.value + 1] == [s[0]] + s[1..][..k.value];
        Options.Some(k.value + 1)
  }

  /** `s.replace(c, '')` with a one-character pattern: only the FIRST occurrence is removed. */
  function RemoveFirst(s: string, c: char): (r: string)
    ensures c !in s ==> r == s
    ensures c in s ==> |r| == |s| - 1
    ensures FirstIndex(s, c).Some? ==> var k := FirstIndex(s, c).value; r == s[..k] + s[k + 1..]
  {
    match FirstIndex(s, c)
    case None => s
    case Some(k) => s[..k] + s[k + 1..]
  }

  /** `s.startsWith(p)`. */
  predicate StartsWith(s: string, p: string) {
    |p| <= |s| && s[..|p|] == p
  }

  /** `s.endsWith(p)`. */
  predicate EndsWith(s: string, p: string) {
    |p| <= |s| && s[|s| - |p|..] == p
  }

  predicate IsDigit(c: char) {
    '0' <= c <= '9'
  }

  function DigitChar(d: nat): (c: char)
    requires d < 10
    ensures IsDigit(c) && c as int - '0' as int == d
  {
    (d + '0' as int) as char
  }

  /** Decimal rendering of a natural number, as a template literal prints it. */
  function NatToString(n: nat): (r: string)
    ensures |r| >= 1
    ensures forall i :: 0 <= i < |r| ==> IsDigit(r[i])
  {
    if n < 10 then [DigitChar(n)] else NatToString(n / 10) + [DigitChar(n % 10)]
  }

  /** Decimal rendering of an integer, with a leading minus sign when negative. */
  function IntToString(i: int): (r: string)
    ensures |r| >= 1
    ensures i >= 0 ==> r == NatToString(i)
    ensures i < 0 ==> r == "-" + NatToString(-i)
  {
    if i < 0 then "-" + NatToString(-i) else NatToString(i)
  }

  /** Decimal value of a string of digits (the empty string reads as 0). */
  function ParseNat(s: string): nat
    requires forall i :: 0 <= i < |s| ==> IsDigit(s[i])
  {
    if |s| == 0 then 0
    else
      assert IsDigit(s[|s| - 1]);
      var d := s[|s| - 1] as int - '0' as int;
      10 * ParseNat(s[..|s| - 1]) + d
  }

  /** Reading back the decimal rendering of a number yields the number. */
  lemma {:induction false} ParseNatToString(n: nat)
    ensures ParseNat(NatToString(n)) == n
  {
    if n >= 10 {
      var s := NatToString(n);
      assert s[..|s| - 1] == NatToString(n / 10);
      ParseNatToString(n / 10);
    }
  }

  /** `xs.join(sep)`. */
  function Join(sep: string, xs: seq<string>): (r: string)
    ensures |xs| == 0 ==> r == []
    ensures |xs| == 1 ==> r == xs[0]
  {
    if |xs| == 0 then [] else if |xs| == 1 then xs[0] else xs[0] + sep + Join(sep, xs[1..])
  }
}
